=== FILE: README.md ===
# Weatheroo quota, cache and client lookup — a Dafny model

Weatheroo is a weather front end that proxies OpenWeatherMap through its own
server. This project models the parts of it that decide when to call upstream,
when to answer from a cache, and what the browser shows:

- **The store adapter** (`server/utils/redis.ts`). The Upstash client becomes an
  abstract key-value store (`KvStore`). Each key holds a JSON value with an
  optional expiry instant. A key order is kept so that SCAN can walk the
  keyspace, and a `reachable` flag says whether every request fails.
  The helpers (`Redis`) sit on top of it:
  - set-with-expiry and get;
  - exists and delete;
  - the paged scan loop;
  - increment, which sets an expiry whenever the increment yields 1 (a missing, expired or 0-valued counter);
  - counter and TTL reads with their defaults;
  - the connection test.

  Every helper absorbs faults into a fixed default.
- **The fixed-window rate limiter and server cache**
  (`server/api/utils/rateLimit.ts`, module `RateLimit`):
  - one counter per epoch minute (limit 50) and one per local calendar day
    (limit 950), under `weatheroo:rate:minute:<minute>` and
    `weatheroo:rate:daily:<y>-<m>-<d>`;
  - `isRateLimited`, `trackApiCall` and the usage report, plus the report's
    default snapshot;
  - the 30-minute server cache under `weatheroo:cache:`, its key listing and
    its statistics.
- **The operator endpoint** (`server/api/test/rate-limit.ts`, module
  `RateLimitProbe`):
  - parsing of `count`;
  - the `check`, `simulate`, `detailed` and `stress` actions;
  - the reply to an unknown action.

  The stress loop tracks one call per iteration and stops at the first limited
  one.
- **The browser lookup** (`composables/useWeatherService.ts`, module
  `WeatherClient`):
  - the 30-minute `localStorage` cache, where a record is fresh while
    `now - timestamp < 1 800 000`;
  - the cache keys derived from a city name or from coordinates rounded to two
    decimals;
  - how a cache hit, a 429, another error status, an `error` body or a success
    turns into the result, the reactive state and the storage;
  - `clearCache`.

Every operation runs at one frozen instant, which it takes as a parameter:
epoch milliseconds, and a `Clock` that also carries the local date. The page's
globals also become parameters:

- whether a window exists;
- `Date.now()`;
- the response `fetch` would deliver.

JSON values are a `Json` datatype with JavaScript truthiness and `String(v)`.
`JSON.stringify`/`JSON.parse` are treated as an identity. Text that does not
parse back is a separate `Raw` case of a storage slot.

Supporting modules:
- `Optional` is an option type.
- `Text` models the JavaScript string built-ins the code uses:
  - `${n}` for integers;
  - `parseInt` without a radix;
  - `trim`;
  - ASCII `toLowerCase`;
  - the first-occurrence `replace`.

The usage report uses one `Window` record for both windows. Its `count` and
`limit` fields correspond to `requestCount`/`maxRequests` in the minute window
and to `count`/`limit` in the daily window. Its `resetAtMs` is the instant the
source renders with `toISOString`.

## Model

| member | source | states |
|---|---|---|
| KvStore.Set | server/utils/redis.ts:19 | SET with EX stores the value with an expiry `seconds` after now; it fails when the store is unreachable or the expiry is not positive |
| KvStore.Get | server/utils/redis.ts:30 | GET answers exactly for live keys; it changes nothing and fails only when the store is unreachable |
| KvStore.Exists | server/utils/redis.ts:48 | EXISTS on one key answers 0 or 1 and changes nothing |
| KvStore.Del | server/utils/redis.ts:59 | DEL removes the key and nothing else |
| KvStore.Scan | server/utils/redis.ts:74-78 | a SCAN page leaves the store alone; a non-zero next cursor lies strictly after the current one and inside the walk |
| KvStore.Incr | server/utils/redis.ts:92 | INCR adds the key when it is missing and changes no other key's presence |
| KvStore.Expire | server/utils/redis.ts:95 | EXPIRE changes no key but its own |
| KvStore.Ttl | server/utils/redis.ts:118 | TTL changes nothing and answers -2 or more |
| KvStore.PrefixPattern | server/api/utils/rateLimit.ts:183 | the glob `prefix*` matches exactly the keys that start with `prefix` |
| Redis.SetWithExpiry | server/utils/redis.ts:13-25 | reports `true` exactly when the store is reachable and the expiry positive; then the key holds the value until now + expiry, and otherwise the store is unchanged |
| Redis.GetValue | server/utils/redis.ts:28-43 | a value is returned exactly when the key is live, the store is reachable and the value is truthy (and not a string); it is the stored value |
| Redis.SetThenGet | server/utils/redis.ts:13-43 | a truthy, non-string value written with an expiry reads back unchanged at any instant up to that expiry |
| Redis.KeyExists | server/utils/redis.ts:46-54 | true exactly when the store is reachable and the key is live |
| Redis.DeleteKey | server/utils/redis.ts:57-65 | reports `true` exactly when reachable; the key is then gone and every other key kept; on failure the store is unchanged |
| Redis.ScanLoop | server/utils/redis.ts:73-80 | the do/while loop from a cursor collects exactly the live matching keys from that point of the walk on, in order; it fails only when the store is unreachable |
| Redis.ScanKeys | server/utils/redis.ts:68-87 | the result lists only live keys matching the pattern; it is `[]` when the store is unreachable |
| Redis.ScanKeysComplete | server/utils/redis.ts:68-87 | when the walk covers the keyspace once, every live matching key is listed exactly once and nothing else is |
| Redis.IncrementCounter | server/utils/redis.ts:90-102 | the result is the previous count plus one; a fault (unreachable, non-integer value) gives 0 and leaves the store alone |
| Redis.IncrementCounterEffect | server/utils/redis.ts:90-102 | only the counter's key changes; a counter the increment brings to 1 (missing, expired or holding 0) gets `now + expiry`, or is deleted at once when the expiry is not positive; any other counter keeps its expiry |
| Redis.IncrementLeavesOthers | server/utils/redis.ts:90-102 | incrementing one counter leaves every other key and its counter value as they were |
| Redis.IncrementThenCount | server/utils/redis.ts:92-97 | after an increment with a positive expiry, the counter reads one more than before, and a counter it brought to 1 carries that expiry |
| Redis.GetCounter | server/utils/redis.ts:105-113 | 0 for a missing key or an unreachable store, otherwise the integer stored |
| Redis.GetTtl | server/utils/redis.ts:116-123 | -2 for a missing key or an unreachable store; -1 when the key has no expiry; otherwise the remaining time rounded to the nearest second |
| Redis.TestRedisConnection | server/utils/redis.ts:126-169 | without URL or token the result is disconnected with the fixed message and the store untouched; otherwise it is connected, with `get` true exactly when the store is reachable, and the throwaway key is gone afterwards |
| RateLimit.MinuteOf | server/api/utils/rateLimit.ts:29 | the minute index is the 60 000 ms bucket holding the instant |
| RateLimit.MinuteKeyIffSameBucket | server/api/utils/rateLimit.ts:27-31 | two instants share a minute key if and only if they fall in the same minute bucket |
| RateLimit.DailyKeyIffSameDate | server/api/utils/rateLimit.ts:34-38 | two instants share a daily key if and only if their local dates agree, even though the date text is unpadded |
| RateLimit.WindowKeysDiffer | server/api/utils/rateLimit.ts:20-38 | the minute and daily counters of an instant never share a key |
| RateLimit.CacheKeysAreNotCounters | server/api/utils/rateLimit.ts:20-24 | no cache key coincides with a counter key |
| RateLimit.IsRateLimited | server/api/utils/rateLimit.ts:41-64 | limited exactly when the minute count has reached 50 or the daily count 950; never limited when the store is unreachable (fail-open) |
| RateLimit.TrackApiCall | server/api/utils/rateLimit.ts:67-83 | always reports `true`; an unreachable store is left unchanged |
| RateLimit.TrackApiCallMinute | server/api/utils/rateLimit.ts:72-75 | one tracked call adds exactly one to the minute counter; a counter it creates expires 60 s later |
| RateLimit.TrackApiCallDaily | server/api/utils/rateLimit.ts:72-75 | one tracked call adds exactly one to the daily counter; a counter it creates expires 86 400 s later |
| RateLimit.TrackApiCallLeavesOthers | server/api/utils/rateLimit.ts:67-83 | a tracked call changes no key other than the two window counters |
| RateLimit.PercentUsed | server/api/utils/rateLimit.ts:109 | the percentage is `count / limit * 100` rounded to the nearest integer, halves up |
| RateLimit.MakeWindow | server/api/utils/rateLimit.ts:98-117 | the reset instant is now + TTL seconds; `remaining` is the unused quota, never negative, and 0 once the count reaches the limit |
| RateLimit.GetUsageStats | server/api/utils/rateLimit.ts:86-118 | reports the limits 50 and 950, with remaining quota between 0 and the limit |
| RateLimit.UsageStatsCounts | server/api/utils/rateLimit.ts:91-117 | the reported counts are the counters' current values |
| RateLimit.UnreachableUsageStats | server/api/utils/rateLimit.ts:86-118 | with the store down, the report shows no calls, the full quota, 0 % used, and both resets two seconds ago (TTL -2) |
| RateLimit.DefaultUsageStats | server/api/utils/rateLimit.ts:124-140 | the fallback snapshot shows no calls and the full quota; the minute window resets now and the daily one at the next local midnight |
| RateLimit.UnreachableMinuteStatsMatchDefault | server/api/utils/rateLimit.ts:119-132 | with the store down, the minute report equals the fallback snapshot except for its reset instant |
| RateLimit.UnreachableDailyStatsMatchDefault | server/api/utils/rateLimit.ts:133-140 | with the store down, the daily report equals the fallback snapshot except for its reset instant |
| RateLimit.GetCachedWeather | server/api/utils/rateLimit.ts:145-157 | there is a hit exactly when the store is reachable and the key under `weatheroo:cache:` + location is live with a truthy, non-string value, and the hit is that value |
| RateLimit.SetCachedWeather | server/api/utils/rateLimit.ts:159-178 | when reachable, stores `{data, timestamp: now}` under the prefixed key for 1800 s; otherwise reports `false` and changes nothing |
| RateLimit.ServerCacheRoundTrip | server/api/utils/rateLimit.ts:145-178 | within 30 minutes of caching, the read returns the record holding the same data and the storage instant |
| RateLimit.GetAllCacheKeys | server/api/utils/rateLimit.ts:181-191 | lists only live keys under the cache prefix; `[]` when the store is unreachable |
| RateLimit.AllCacheKeysComplete | server/api/utils/rateLimit.ts:181-191 | every live cache key is listed, exactly once |
| RateLimit.StripCachePrefix | server/api/utils/rateLimit.ts:199 | removing the prefix keeps one entry per key, and putting the prefix back gives the key |
| RateLimit.GetCacheStats | server/api/utils/rateLimit.ts:194-215 | `size` is the number of cache keys, and each location, prefixed, is the corresponding key; `{0, []}` when the store is unreachable |
| RateLimit.CacheStatsComplete | server/api/utils/rateLimit.ts:194-204 | a location is reported if and only if it has a live cache entry |
| Text.ParseIntRoundTrip | server/api/test/rate-limit.ts:18 | `parseInt` reads back every integer rendered in decimal |
| RateLimitProbe.ParseCount | server/api/test/rate-limit.ts:18 | the count is never 0: a missing, non-numeric or zero `count` gives 1; otherwise it is what `parseInt` reads |
| RateLimitProbe.ParseCountOfNumeral | server/api/test/rate-limit.ts:18 | a count written as a numeral is read as itself, except that 0 becomes 1 |
| RateLimitProbe.StressStepIsLoopBody | server/api/test/rate-limit.ts:103-114 | one modelled pass is the loop body as written (track, read stats, check limit), recorded as call `i + 1` |
| RateLimitProbe.StressStep | server/api/test/rate-limit.ts:104-114 | each pass records call `i + 1` as tracked and leaves an unreachable store alone |
| RateLimitProbe.StressFrom | server/api/test/rate-limit.ts:103-120 | at most `max(count, 0)` records, numbered 1, 2, … in order, all tracked; only the last can be limited, and a run that stops early ends with a limited record |
| RateLimitProbe.StressStopsAtLimit | server/api/test/rate-limit.ts:103-120 | with the counts at m and d under their limits and enough iterations left, the loop makes exactly min(50 − m, 950 − d) calls and the last is limited |
| RateLimitProbe.FreshWindowStopsAtFifty | server/api/test/rate-limit.ts:103-120 | from a fresh minute window, with at most 900 calls today, a run of at least 50 stops at call 50, which is limited |
| RateLimitProbe.Summarize | server/api/test/rate-limit.ts:130-136 | `totalCalls` is the number of records, `successfulCalls` lies between 0 and it, and `hitRateLimit` holds iff some record is limited |
| RateLimitProbe.SummaryOfRun | server/api/test/rate-limit.ts:131-133 | for a run shaped like the loop's, every call is successful and the limit was hit iff the last record is limited |
| RateLimitProbe.Check | server/api/test/rate-limit.ts:21-33 | leaves the store unchanged, reports the minute and daily windows `getUsageStats` gives, and reports limited exactly when a counter has reached its limit (never when the store is down) |
| RateLimitProbe.Simulate | server/api/test/rate-limit.ts:35-48 | reports success; the store afterwards is the one `trackApiCall` leaves, and the stats are read before and after it; with the store down nothing changes |
| RateLimitProbe.SimulateAddsOne | server/api/test/rate-limit.ts:37-39 | the after-stats count one more call than the before-stats in both windows |
| RateLimitProbe.Inspect | server/api/test/rate-limit.ts:50-96 | reports both current keys with limits 50 and 950; connected (with operations) exactly when configured; with the store down, counters 0 and TTLs -2; the usage and cache stats are those of the store before the request, and the counters and TTLs are read after the connection test |
| RateLimitProbe.InspectReadsCounters | server/api/test/rate-limit.ts:54-70 | the counters and TTLs `detailed` reports equal those of the store before the request, since the connection test touches no counter key |
| RateLimitProbe.ConnectionTestKeepsCounter | server/utils/redis.ts:126-169 | the connection test leaves the counter and TTL of every `weatheroo:` key unchanged |
| RateLimitProbe.Stress | server/api/test/rate-limit.ts:98-139 | echoes the requested count; the initial stats are read before the loop, and the records, the store and the final stats are those the loop leaves; all calls are successful; the run hit the limit iff its last record is limited |
| RateLimitProbe.Handle | server/api/test/rate-limit.ts:15-148 | each of the four actions gets exactly the reply and store of its own handler (Check, Simulate, Inspect, Stress); any other or missing action gets the fixed error and the list of actions, with the store untouched; `stress` requests the number of calls ParseCount reads from `count` |
| Text.TrimEmptyIffAllSpace | composables/useWeatherService.ts:162 | `city.trim()` is empty exactly when the name is all white space |
| Text.TrimLowerCommute | composables/useWeatherService.ts:171 | lower-casing then trimming equals trimming then lower-casing |
| WeatherClient.GetCached | composables/useWeatherService.ts:119-139 | an entry is returned iff a window exists and the stored record is younger than 30 minutes (strictly); a returned entry leaves the storage unchanged; an expired record or unparseable text is removed, and only that key |
| WeatherClient.SetCached | composables/useWeatherService.ts:142-158 | with a window, the key holds the answer's payloads stamped with now, and every other key is unchanged; without a window nothing happens |
| WeatherClient.CacheRoundTrip | composables/useWeatherService.ts:119-158 | a record stored at t is read back with the same current/forecast/cachedAt at any instant before t + 30 min |
| WeatherClient.FreshnessBoundary | composables/useWeatherService.ts:116-133 | the record is served 1 799 999 ms after it was written and removed at 1 800 000 ms |
| WeatherClient.ClearCache | composables/useWeatherService.ts:332-341 | with a window, a key survives iff it does not start with `weatheroo-cache-`; survivors keep their values; without a window nothing changes |
| WeatherClient.ClearCacheForgets | composables/useWeatherService.ts:332-341 | after clearing, no lookup key finds a cached answer |
| WeatherClient.CityKeyIgnoresCaseAndPadding | composables/useWeatherService.ts:171 | names differing only in letter case or surrounding white space share a cache key |
| WeatherClient.Hundredths | composables/useWeatherService.ts:257-258 | the printed number of hundredths is the nearest one to the magnitude, halves up |
| WeatherClient.ToFixed2 | composables/useWeatherService.ts:257-258 | the text has a sign exactly for negative numbers, a point, and exactly two decimals |
| WeatherClient.ToFixed2Injective | composables/useWeatherService.ts:257-258 | two numbers print alike iff they have the same sign and round to the same hundredths |
| WeatherClient.CoordsKeyShared | composables/useWeatherService.ts:256-260 | two positions share a cache key iff both coordinates print alike to two decimals |
| WeatherClient.CityAndCoordsKeysDiffer | composables/useWeatherService.ts:171-259 | a city key never equals a coordinates key |
| WeatherClient.Answer | composables/useWeatherService.ts:191-242 | a failed request writes nothing and sets the error to its message; a success leaves the error untouched |
| WeatherClient.Lookup | composables/useWeatherService.ts:164-242 | loading ends false whenever storage is accessible; the error state is set iff the result is an error, and to its message; a request is issued iff the cache misses |
| WeatherClient.CacheHitServed | composables/useWeatherService.ts:174-189 | a hit returns `cached: true` with the stored payloads and timestamp, issues no request and leaves the storage as read |
| WeatherClient.MissOutcome | composables/useWeatherService.ts:191-242 | after a miss, the result is weather iff the response is OK with a non-null JSON body without `error`; then the answer is stored and shown; otherwise storage is untouched and the message is the one a direct classification gives (429, not found, generic) |
| WeatherClient.RateLimitedReply | composables/useWeatherService.ts:197-204 | a 429 whose body carries a nonzero `data.retryAfter = n` gives "Rate limit exceeded. Please try again later. (ns)" |
| WeatherClient.FetchedAnswerCached | composables/useWeatherService.ts:172-223 | after a successful request, a lookup of the same key within 30 minutes issues no request and returns the same payloads |
| WeatherClient.GetWeatherByCity | composables/useWeatherService.ts:161-243 | a blank name gives "City name is required" with no state change, storage access or request; otherwise loading ends false, a request is issued iff the city key misses the cache, and a hit returns the cached entry |
| WeatherClient.BlankCityRefused | composables/useWeatherService.ts:162 | a name made only of white space is refused that way |
| WeatherClient.CitySpellingsAgree | composables/useWeatherService.ts:161-172 | two spellings differing in case or padding, given the same response, get the same outcome |
| WeatherClient.GetWeatherByCoords | composables/useWeatherService.ts:246-329 | loading ends false, a request is issued iff the rounded-coordinates key misses the cache, and a hit returns the cached entry |
| WeatherClient.UnknownCity | composables/useWeatherService.ts:210-214 | after a cache miss, an OK answer with a truthy `error` makes the city lookup fail with "City not found. Please try another location." and write nothing to the cache |
| WeatherClient.UnknownLocation | composables/useWeatherService.ts:296-300 | after a cache miss, an OK answer with a truthy `error` makes the coordinates lookup fail with "Location not found. Please try again." and write nothing to the cache |

## Left out

- I/O, logging and time rendering:
  - Network transport, logging (`console.*`) and the request timestamps of the operator replies are not modelled.
  - ISO date strings are represented by the epoch milliseconds they render.
  - A cache record whose timestamp `toISOString` cannot render is not modelled.
- Concurrency: `Promise.all` groups are modelled as the same calls made one after another. Concurrent requests to the endpoints or the store are not modelled.
- The clock: every operation reads one frozen instant. In the source, the minute key, the daily key and `Date.now()` are each read separately and could straddle a minute or midnight boundary.
- Store faults: the store is either reachable for a whole operation or not at all. A failure in the middle of an operation is not modelled.
- Redis.GetValue: a stored top-level string is parsed a second time by the source, which may yield a value. The model treats it as unreadable (null).
- Redis.GetCounter: a stored non-numeric value reads as 0 in the model. The source would give `parseInt` of its text, possibly NaN.
- Text.TrimLowerCommute, WeatherClient.CityKeyIgnoresCaseAndPadding: `toLowerCase` is modelled for ASCII letters only. Unicode case mapping is out of scope.
- WeatherClient.ToFixed2: `toFixed` is modelled on exact reals. Binary floating point and the exponential form for magnitudes of 1e21 and more are out of scope.
- WeatherClient.SetCached: `localStorage` quota errors, which the source catches and ignores, are not modelled.
- WeatherClient.Lookup, WeatherClient.GetWeatherByCity, WeatherClient.GetWeatherByCoords, WeatherClient.GetCached, WeatherClient.ClearCache: a `localStorage` access that throws (storage disabled or denied) is not modelled. In the source `getItem` runs outside the `try` (useWeatherService.ts:123, 172, 250), so the lookup then rejects and `loading` stays true.
- Storage text: text in storage that `JSON.parse` accepts as a record with a numeric timestamp is the `Saved` case. Any other text is `Raw`.
- RateLimitProbe.Handle: a query parameter given twice (an array) is modelled only as missing or as a single string.
- RateLimitProbe.FreshWindowStopsAtFifty: requires at most 900 calls made today. With 900 < d < 950 the daily limit stops the run earlier; StressStopsAtLimit states the general case with min(50 − m, 950 − d).
- RateLimitProbe.StressFrom: the loop is stated over a pass function (`Pass`), instantiated with the real loop body by `PassAt`. StressStepIsLoopBody ties that body to `trackApiCall`/`getUsageStats`/`isRateLimited`.
- RateLimit.GetUsageStats: its function contract states only limits and remaining-quota bounds. The counts and the unreachable-store values are stated by UsageStatsCounts and UnreachableUsageStats.
- Usage windows: `Window` is one record for both windows. The source names the minute fields `requestCount`/`maxRequests` and the daily ones `count`/`limit`.
- Redis.ScanKeysComplete, RateLimit.AllCacheKeysComplete, KvStore.Scan: SCAN is modelled as one walk over a duplicate-free key order. Redis may return a key more than once across a scan, so in the source the cache size `getCacheStats` reports could exceed the number of cache keys.
- WeatherClient.CitySpellingsAgree, WeatherClient.GetWeatherByCity, WeatherClient.GetWeatherByCoords: the request URL is not modelled; the response is a parameter. The source sends the raw city text and the unrounded coordinates (useWeatherService.ts:192-194, 280), so two spellings that share a cache key still make different requests.
- Json: JSON numbers are integers. This leaves out INCR overflow past 2^63 − 1, where Redis errors and `incrementCounter` returns 0 (redis.ts:98-101), and fractional numbers such as a `retryAfter` of 2.5 in the rate-limit message.
- Other files: the weather gateway (`server/api/weather.ts`), the admin usage endpoint, middleware, health and cron probes, the other composables and Vue reactivity itself are outside this model.

=== FILE: client.dfy ===
/** The browser side of the weather service (composables/useWeatherService.ts):
    a 30-minute cache in `localStorage`, the cache keys it derives from a city
    name or a pair of coordinates, and how the answer of `/api/weather` turns
    into a result and into the composable's reactive state.

    The page's globals are parameters: `Env` says whether a window exists
    (server-side rendering has none) and what `Date.now()` reads; the response
    `fetch` would deliver is passed in, and the outcome says whether the
    request was issued at all. */
module WeatherClient {
  import opened Optional
  import opened Json
  import Text

  const CacheDurationMs: int := 30 * 60 * 1000
  const StoragePrefix: string := "weatheroo-cache-"

  const CityRequired: string := "City name is required"
  const FetchFailed: string := "Failed to fetch weather data. Please try again."
  const CityNotFound: string := "City not found. Please try another location."
  const LocationNotFound: string := "Location not found. Please try again."

  datatype Env = Env(browser: bool, now: int)

  // ----------------------------------------------------------- local storage

  /** A cached answer: the payloads, when it was stored (epoch ms) and the
      server's own `cachedAt`, each absent when the answer lacked it. */
  datatype CacheEntry = CacheEntry(current: Option<Json>, forecast: Option<Json>, timestamp: int, cachedAt: Option<Json>)

  /** What `localStorage` holds under a key: text that parses to a cache
      record with a numeric timestamp, or any other text. */
  datatype Slot = Saved(entry: CacheEntry) | Raw(text: string)

  type Storage = map<string, Slot>

  function StorageKey(key: string): string { StoragePrefix + key }

  /** `getCachedWeather`: a record younger than 30 minutes is served; an
      expired record or text that is not a record is removed; an empty item
      reads as absent and stays. */
  function GetCached(env: Env, storage: Storage, key: string): (r: (Option<CacheEntry>, Storage))
    ensures var k := StorageKey(key);
      r.0.Some? <==> env.browser && k in storage && storage[k].Saved?
                     && env.now - storage[k].entry.timestamp < CacheDurationMs
    ensures r.0.Some? ==> r.0.value == storage[StorageKey(key)].entry && r.1 == storage
    ensures r.1 == storage || r.1 == storage - {StorageKey(key)}
    ensures var k := StorageKey(key);
      !env.browser || k !in storage || storage[k] == Raw("") ==> r.1 == storage
    ensures var k := StorageKey(key);
      env.browser && k in storage && r.0.None? && storage[k] != Raw("") ==> r.1 == storage - {k}
  {
    var k := StorageKey(key);
    if !env.browser || k !in storage then (None, storage)
    else match storage[k]
      case Raw(text) => if text == "" then (None, storage) else (None, storage - {k})
      case Saved(e) =>
        if env.now - e.timestamp < CacheDurationMs then (Some(e), storage) else (None, storage - {k})
  }

  /** The record `setCachedWeather` stores for an answer received at `now`. */
  function EntryFor(data: Json, now: int): CacheEntry {
    CacheEntry(Prop(data, "current"), Prop(data, "forecast"), now, Prop(data, "cachedAt"))
  }

  /** `setCachedWeather`: stores the answer under its key; nothing happens
      without a window. */
  function SetCached(env: Env, storage: Storage, key: string, data: Json): (r: Storage)
    ensures !env.browser ==> r == storage
    ensures env.browser ==> StorageKey(key) in r && r[StorageKey(key)] == Saved(EntryFor(data, env.now))
    ensures forall k :: k != StorageKey(key) ==> (k in r <==> k in storage) && (k in r ==> r[k] == storage[k])
  {
    if !env.browser then storage else storage[StorageKey(key) := Saved(EntryFor(data, env.now))]
  }

  /** What is stored is what is read back for the next 30 minutes. */
  lemma {:induction false} CacheRoundTrip(env: Env, later: Env, storage: Storage, key: string, data: Json)
    requires env.browser && later.browser && later.now - env.now < CacheDurationMs
    ensures GetCached(later, SetCached(env, storage, key, data), key)
         == (Some(CacheEntry(Prop(data, "current"), Prop(data, "forecast"), env.now, Prop(data, "cachedAt"))),
             SetCached(env, storage, key, data))
  {
  }

  /** The 30 minutes are strict: a record is served one millisecond before
      they end and removed when they end. */
  lemma {:induction false} FreshnessBoundary(t: int, storage: Storage, key: string, data: Json)
    ensures var written := SetCached(Env(true, t), storage, key, data);
      && GetCached(Env(true, t + 1799999), written, key).0.Some?
      && GetCached(Env(true, t + 1800000), written, key) == (None, written - {StorageKey(key)})
  {
  }

  /** `clearCache`: drops every item under the cache prefix. */
  function ClearCache(env: Env, storage: Storage): (r: Storage)
    ensures !env.browser ==> r == storage
    ensures env.browser ==> forall k :: k in r <==> k in storage && !(StoragePrefix <= k)
    ensures forall k :: k in r ==> k in storage && r[k] == storage[k]
  {
    if !env.browser then storage
    else map k | k in storage && !(StoragePrefix <= k) :: storage[k]
  }

  /** After clearing, no key reads a cached answer, and the read removes
      nothing further. */
  lemma {:induction false} ClearCacheForgets(env: Env, storage: Storage, key: string)
    requires env.browser
    ensures GetCached(env, ClearCache(env, storage), key) == (None, ClearCache(env, storage))
  {
    assert StoragePrefix <= StorageKey(key);
  }

  // -------------------------------------------------------------- cache keys

  /** `city-${city.toLowerCase().trim()}`. */
  function CityKey(city: string): string {
    "city-" + Text.Trim(Text.Lower(city))
  }

  lemma {:induction false} LowerKeepsSpace(s: string)
    requires Text.AllSpace(s)
    ensures Text.Lower(s) == s
  {
    forall i | 0 <= i < |s| ensures Text.Lower(s)[i] == s[i] {
      assert Text.IsJsSpace(s[i]);
    }
  }

  lemma {:induction false} LowerAppend(a: string, b: string)
    ensures Text.Lower(a + b) == Text.Lower(a) + Text.Lower(b)
  {
    assert forall i :: 0 <= i < |a + b| ==> Text.Lower(a + b)[i] == (Text.Lower(a) + Text.Lower(b))[i];
  }

  /** Names that differ only in letter case or in surrounding white space
      share a cache key. */
  lemma {:induction false} CityKeyIgnoresCaseAndPadding(pre: string, a: string, b: string, post: string)
    requires Text.AllSpace(pre) && Text.AllSpace(post) && Text.Lower(a) == Text.Lower(b)
    ensures CityKey(pre + a + post) == CityKey(b)
  {
    LowerAppend(pre + a, post);
    LowerAppend(pre, a);
    LowerKeepsSpace(pre);
    LowerKeepsSpace(post);
    Text.TrimIgnoresPadding(pre, Text.Lower(a), post);
  }

  /** Magnitude of `x` in hundredths, rounded half up: the integer that
      `toFixed(2)` prints. */
  function Hundredths(x: real): (n: nat)
    ensures var a := if x < 0.0 then -x else x;
      (n as real) - 0.5 <= a * 100.0 < (n as real) + 0.5
  {
    var a := if x < 0.0 then -x else x;
    (a * 100.0 + 0.5).Floor
  }

  /** The digits `toFixed(2)` prints for `n` hundredths: the whole part, a
      point and exactly two decimals. */
  function FixedDigits(n: nat): (s: string)
    ensures |s| >= 4 && s[|s| - 3] == '.'
    ensures forall i :: 0 <= i < |s| ==> s[i] != '-'
  {
    var whole := Text.NatToString(n / 100);
    var cents := n % 100;
    var s := whole + "." + [Text.DigitChar(cents / 10), Text.DigitChar(cents % 10)];
    assert forall i :: 0 <= i < |s| ==> s[i] != '-' by {
      forall i | 0 <= i < |s| ensures s[i] != '-' {
        if i < |whole| { assert Text.IsDigit(whole[i]); }
      }
    }
    s
  }

  /** Different numbers of hundredths print differently. */
  lemma {:induction false} FixedDigitsInjective(m: nat, n: nat)
    ensures FixedDigits(m) == FixedDigits(n) <==> m == n
  {
    if FixedDigits(m) == FixedDigits(n) {
      var u := FixedDigits(m);
      var f, g := m % 100, n % 100;
      assert Text.DigitValue(u[|u| - 2]) == f / 10 == g / 10;
      assert Text.DigitValue(u[|u| - 1]) == f % 10 == g % 10;
      assert f == g;
      assert u[..|u| - 3] == Text.NatToString(m / 100) == Text.NatToString(n / 100);
      Text.NatToStringInjective(m / 100, n / 100);
    }
  }

  /** `x.toFixed(2)`: a minus sign for a negative number, then the digits of
      its magnitude in hundredths. */
  function ToFixed2(x: real): (s: string)
    ensures |s| >= 4 && s[|s| - 3] == '.'
    ensures forall i :: 0 < i < |s| ==> s[i] != '-'
    ensures s[0] == '-' <==> x < 0.0
  {
    if x < 0.0 then "-" + FixedDigits(Hundredths(x)) else FixedDigits(Hundredths(x))
  }

  /** Two numbers print alike exactly when they have the same sign and round
      to the same hundredths. */
  lemma {:induction false} ToFixed2Injective(x: real, y: real)
    ensures ToFixed2(x) == ToFixed2(y) <==> (x < 0.0 <==> y < 0.0) && Hundredths(x) == Hundredths(y)
  {
    var m, n := Hundredths(x), Hundredths(y);
    FixedDigitsInjective(m, n);
    if ToFixed2(x) == ToFixed2(y) {
      var s := ToFixed2(x);
      var u := if x < 0.0 then s[1..] else s;
      assert u == FixedDigits(m);
      assert u == FixedDigits(n);
    }
  }

  /** `coords-${lat.toFixed(2)}-${lon.toFixed(2)}`. */
  function CoordsKey(lat: real, lon: real): string {
    "coords-" + ToFixed2(lat) + "-" + ToFixed2(lon)
  }

  /** The printed forms are recovered from a coordinates key: the first one
      is the only part with no minus sign past its first character. */
  lemma {:induction false} CoordsKeySplits(p: string, a1: string, b1: string, a2: string, b2: string)
    requires |a1| >= 1 && |a2| >= 1
    requires forall i :: 0 < i < |a1| ==> a1[i] != '-'
    requires forall i :: 0 < i < |a2| ==> a2[i] != '-'
    requires p + a1 + "-" + b1 == p + a2 + "-" + b2
    ensures a1 == a2 && b1 == b2
  {
    var s := a1 + "-" + b1;
    var t := a2 + "-" + b2;
    assert s == (p + a1 + "-" + b1)[|p|..];
    assert t == (p + a2 + "-" + b2)[|p|..];
    assert s[|a1|] == '-' && t[|a2|] == '-';
    assert |a1| == |a2|;
    assert a1 == s[..|a1|] && a2 == t[..|a2|];
    assert b1 == s[|a1| + 1..] && b2 == t[|a2| + 1..];
  }

  /** Two positions share a cache key exactly when both coordinates print
      alike to two decimals. */
  lemma {:induction false} CoordsKeyShared(lat1: real, lon1: real, lat2: real, lon2: real)
    ensures CoordsKey(lat1, lon1) == CoordsKey(lat2, lon2)
        <==> ((lat1 < 0.0 <==> lat2 < 0.0) && Hundredths(lat1) == Hundredths(lat2)
              && (lon1 < 0.0 <==> lon2 < 0.0) && Hundredths(lon1) == Hundredths(lon2))
  {
    ToFixed2Injective(lat1, lat2);
    ToFixed2Injective(lon1, lon2);
    if CoordsKey(lat1, lon1) == CoordsKey(lat2, lon2) {
      CoordsKeySplits("coords-", ToFixed2(lat1), ToFixed2(lon1), ToFixed2(lat2), ToFixed2(lon2));
    }
  }

  /** A city never shares a key with a pair of coordinates. */
  lemma {:induction false} CityAndCoordsKeysDiffer(city: string, lat: real, lon: real)
    ensures CityKey(city) != CoordsKey(lat, lon)
  {
    assert CityKey(city)[1] == 'i' && CoordsKey(lat, lon)[1] == 'o';
  }

  // ------------------------------------------------------------------ fetch

  /** What `fetch` delivers: a network failure, or a status with a body that
      is JSON (`Some`) or not (`None`, so `response.json()` throws). */
  datatype Response = NetworkError | Reply(status: int, body: Option<Json>)

  predicate Ok(status: int) { 200 <= status <= 299 }

  /** `cachedAt` and the cache information's timestamp: the ISO rendering of
      a local record's time, or a value passed on from the server. */
  datatype Stamp = IsoOf(ms: int) | Echo(value: Json)

  datatype CacheInfo = CacheInfo(isCached: bool, timestamp: Option<Stamp>)

  datatype WeatherResult =
    | Error(message: string)
    | Weather(current: Option<Json>, forecast: Option<Json>, cached: Option<Json>,
              cachedAt: Option<Stamp>, notice: Option<Json>)

  /** The composable's reactive state. */
  datatype ServiceState = ServiceState(currentWeather: Option<Json>, forecast: Option<Json>,
                                       loading: bool, error: Option<string>, cacheInfo: CacheInfo)

  /** A lookup's result, the state and storage after it, and whether it
      issued a request. */
  datatype Outcome = Outcome(result: WeatherResult, state: ServiceState, storage: Storage, fetched: bool)

  function Echoed(o: Option<Json>): Option<Stamp> {
    if o.Some? then Some(Echo(o.value)) else None
  }

  /** `responseData?.data?.retryAfter || ""`, rendered into the message. */
  function RateLimitedMessage(body: Json): string {
    var retry := OptProp(OptProp(Some(body), "data"), "retryAfter");
    "Rate limit exceeded. Please try again later. ("
      + (if TruthyOpt(retry) then ToJsString(retry.value) else "") + "s)"
  }

  function Failure(state: ServiceState, storage: Storage, message: string): (r: Outcome)
    ensures r.result == Error(message) && r.state.error == Some(message) && r.storage == storage && r.fetched
  {
    Outcome(Error(message), state.(error := Some(message)), storage, true)
  }

  /** The try block after a cache miss: classify the response, and on
      success record the cache information, store the answer and show it. */
  function Answer(env: Env, state: ServiceState, storage: Storage, key: string, notFound: string,
                  response: Response): (r: Outcome)
    ensures r.fetched
    ensures r.result.Error? ==> r.storage == storage && r.state.error == Some(r.result.message)
    ensures r.result.Weather? ==> r.state.error == state.error
  {
    match response
    case NetworkError => Failure(state, storage, FetchFailed)
    case Reply(status, body) =>
      if !Ok(status) then
        if status == 429 && body.Some? then Failure(state, storage, RateLimitedMessage(body.value))
        else Failure(state, storage, FetchFailed)
      else if body.None? || body.value.JNull? then Failure(state, storage, FetchFailed)
      else
        var data := body.value;
        if TruthyOpt(Prop(data, "error")) then Failure(state, storage, notFound)
        else
          var cachedAt := Prop(data, "cachedAt");
          var stamp := Or(cachedAt, Prop(data, "timestamp"));
          var info := CacheInfo(TruthyOpt(Prop(data, "cached")), if TruthyOpt(stamp) then Echoed(stamp) else None);
          Outcome(Weather(Prop(data, "current"), Prop(data, "forecast"), Prop(data, "cached"),
                          Echoed(cachedAt), Prop(data, "notice")),
                  state.(cacheInfo := info, currentWeather := Prop(data, "current"),
                         forecast := Prop(data, "forecast")),
                  SetCached(env, storage, key, data), true)
  }

  /** The result a cache hit returns. */
  function HitResult(e: CacheEntry): WeatherResult {
    Weather(e.current, e.forecast, Some(JBool(true)), Some(IsoOf(e.timestamp)), None)
  }

  /** The lookup shared by `getWeatherByCity` and `getWeatherByCoords` once
      the cache key is known: start loading and clear the error and cache
      information, answer from the cache when it can, otherwise fetch;
      loading ends whatever the response is. */
  function Lookup(env: Env, state: ServiceState, storage: Storage, key: string, notFound: string,
                  response: Response): (r: Outcome)
    ensures !r.state.loading
    ensures r.state.error == (if r.result.Error? then Some(r.result.message) else None)
    ensures r.fetched <==> GetCached(env, storage, key).0.None?
  {
    var begun := state.(loading := true, error := None, cacheInfo := CacheInfo(false, None));
    var read := GetCached(env, storage, key);
    if read.0.Some? then
      var e := read.0.value;
      Outcome(HitResult(e),
              begun.(currentWeather := e.current, forecast := e.forecast,
                     cacheInfo := CacheInfo(true, Some(IsoOf(e.timestamp))), loading := false),
              read.1, false)
    else
      var r := Answer(env, begun, read.1, key, notFound, response);
      r.(state := r.state.(loading := false))
  }

  /** A response that yields weather: an OK status whose body is JSON, not
      `null`, and carries no truthy `error`. */
  predicate Delivers(response: Response) {
    && response.Reply? && Ok(response.status)
    && response.body.Some? && !response.body.value.JNull?
    && !TruthyOpt(Prop(response.body.value, "error"))
  }

  /** The message of a failed request, classified directly on the response
      rather than by `Answer`'s chain of checks; MissOutcome shows the two
      agree on every response that does not deliver weather:
      429 with a JSON body reports the retry delay; an OK answer with an
      `error` reports the place as not found; everything else (network
      failure, other statuses, bodies that are not JSON) is the generic
      failure. */
  function FailureMessage(response: Response, notFound: string): string {
    if response.Reply? && response.status == 429 && response.body.Some? then
      RateLimitedMessage(response.body.value)
    else if response.Reply? && Ok(response.status) && response.body.Some?
         && TruthyOpt(Prop(response.body.value, "error")) then notFound
    else FetchFailed
  }

  /** A cache hit answers with `cached: true` and the stored payloads, issues
      no request and leaves the storage as it was. */
  lemma {:induction false} CacheHitServed(env: Env, state: ServiceState, storage: Storage, key: string,
                                          notFound: string, response: Response)
    requires GetCached(env, storage, key).0.Some?
    ensures var e := GetCached(env, storage, key).0.value;
      var r := Lookup(env, state, storage, key, notFound, response);
      && r == Outcome(HitResult(e), r.state, storage, false)
      && r.state.currentWeather == e.current && r.state.forecast == e.forecast
      && r.state.cacheInfo == CacheInfo(true, Some(IsoOf(e.timestamp)))
  {
  }

  /** After a cache miss the request succeeds exactly for a delivering
      response, which is stored under the key and shown; any other response
      fails with the message the classification gives and writes nothing. */
  lemma {:induction false} MissOutcome(env: Env, state: ServiceState, storage: Storage, key: string,
                                       notFound: string, response: Response)
    requires GetCached(env, storage, key).0.None?
    ensures var read := GetCached(env, storage, key).1;
      var r := Lookup(env, state, storage, key, notFound, response);
      && (r.result.Weather? <==> Delivers(response))
      && (Delivers(response) ==>
            var data := response.body.value;
            && r.storage == SetCached(env, read, key, data)
            && r.result.current == Prop(data, "current") && r.result.forecast == Prop(data, "forecast")
            && r.state.currentWeather == Prop(data, "current") && r.state.forecast == Prop(data, "forecast")
            && r.state.cacheInfo.isCached == TruthyOpt(Prop(data, "cached")))
      && (!Delivers(response) ==>
            r.storage == read && r.result == Error(FailureMessage(response, notFound)))
  {
  }

  /** Status 429 with a JSON body reports the retry delay the body gives. */
  lemma {:induction false} RateLimitedReply(env: Env, state: ServiceState, storage: Storage, key: string,
                                            notFound: string, retryAfter: int)
    requires GetCached(env, storage, key).0.None? && retryAfter != 0
    ensures var body := JObj(map["data" := JObj(map["retryAfter" := JNum(retryAfter)])]);
      Lookup(env, state, storage, key, notFound, Reply(429, Some(body))).result
        == Error("Rate limit exceeded. Please try again later. (" + Text.IntToString(retryAfter) + "s)")
  {
    var body := JObj(map["data" := JObj(map["retryAfter" := JNum(retryAfter)])]);
    MissOutcome(env, state, storage, key, notFound, Reply(429, Some(body)));
  }

  /** A successful request is served from the cache, without a request,
      for the next 30 minutes. */
  lemma {:induction false} FetchedAnswerCached(env: Env, later: Env, state: ServiceState, storage: Storage,
                                               key: string, notFound: string, response: Response,
                                               next: Response)
    requires env.browser && later.browser && later.now - env.now < CacheDurationMs
    requires GetCached(env, storage, key).0.None? && Delivers(response)
    ensures var first := Lookup(env, state, storage, key, notFound, response);
      var second := Lookup(later, first.state, first.storage, key, notFound, next);
      && !second.fetched
      && second.result.current == first.result.current
      && second.result.forecast == first.result.forecast
  {
    var first := Lookup(env, state, storage, key, notFound, response);
    MissOutcome(env, state, storage, key, notFound, response);
    CacheRoundTrip(env, later, GetCached(env, storage, key).1, key, response.body.value);
  }

  /** `getWeatherByCity`: a name that is blank after trimming is refused
      before any state change, storage access or request. */
  function GetWeatherByCity(env: Env, state: ServiceState, storage: Storage, city: string,
                            response: Response): (r: Outcome)
    ensures Text.Trim(city) == "" ==> r == Outcome(Error(CityRequired), state, storage, false)
    ensures Text.Trim(city) != "" ==> !r.state.loading
    ensures Text.Trim(city) != "" ==> (r.fetched <==> GetCached(env, storage, CityKey(city)).0.None?)
    ensures Text.Trim(city) != "" && GetCached(env, storage, CityKey(city)).0.Some? ==>
      r.result == HitResult(GetCached(env, storage, CityKey(city)).0.value)
  {
    if Text.Trim(city) == "" then Outcome(Error(CityRequired), state, storage, false)
    else Lookup(env, state, storage, CityKey(city), CityNotFound, response)
  }

  /** A city that is only white space is refused. */
  lemma {:induction false} BlankCityRefused(env: Env, state: ServiceState, storage: Storage, city: string,
                                            response: Response)
    requires Text.AllSpace(city)
    ensures GetWeatherByCity(env, state, storage, city, response) == Outcome(Error(CityRequired), state, storage, false)
  {
    Text.TrimEmptyIffAllSpace(city);
  }

  /** Two spellings of a city that differ in case or padding get the same
      outcome from the same storage. */
  lemma {:induction false} CitySpellingsAgree(env: Env, state: ServiceState, storage: Storage,
                                              pre: string, a: string, b: string, post: string,
                                              response: Response)
    requires Text.AllSpace(pre) && Text.AllSpace(post) && Text.Lower(a) == Text.Lower(b)
    ensures GetWeatherByCity(env, state, storage, pre + a + post, response)
         == GetWeatherByCity(env, state, storage, b, response)
  {
    var x := pre + a + post;
    CityKeyIgnoresCaseAndPadding(pre, a, b, post);
    assert Text.Trim(Text.Lower(x)) == CityKey(x)[5..];
    assert Text.Trim(Text.Lower(b)) == CityKey(b)[5..];
    Text.TrimLowerCommute(x);
    Text.TrimLowerCommute(b);
    assert |Text.Trim(x)| == |Text.Trim(b)|;
  }

  /** `getWeatherByCoords`: the same lookup under the coordinates' key. */
  function GetWeatherByCoords(env: Env, state: ServiceState, storage: Storage, lat: real, lon: real,
                              response: Response): (r: Outcome)
    ensures !r.state.loading
    ensures r.fetched <==> GetCached(env, storage, CoordsKey(lat, lon)).0.None?
    ensures GetCached(env, storage, CoordsKey(lat, lon)).0.Some? ==>
      r.result == HitResult(GetCached(env, storage, CoordsKey(lat, lon)).0.value)
  {
    Lookup(env, state, storage, CoordsKey(lat, lon), LocationNotFound, response)
  }

  /** An OK answer flagging `error` to a city request that missed the cache
      reports the city as not found and writes nothing beyond what the
      cache read removed. */
  lemma {:induction false} UnknownCity(env: Env, state: ServiceState, storage: Storage, city: string,
                                       status: int, data: Json)
    requires Text.Trim(city) != "" && GetCached(env, storage, CityKey(city)).0.None?
    requires Ok(status) && TruthyOpt(Prop(data, "error"))
    ensures var r := GetWeatherByCity(env, state, storage, city, Reply(status, Some(data)));
      && r.result == Error(CityNotFound) && r.state.error == Some(CityNotFound)
      && r.storage == GetCached(env, storage, CityKey(city)).1
  {
    MissOutcome(env, state, storage, CityKey(city), CityNotFound, Reply(status, Some(data)));
  }

  /** The same answer to a coordinates request reports the location as not
      found. */
  lemma {:induction false} UnknownLocation(env: Env, state: ServiceState, storage: Storage, lat: real, lon: real,
                                           status: int, data: Json)
    requires GetCached(env, storage, CoordsKey(lat, lon)).0.None?
    requires Ok(status) && TruthyOpt(Prop(data, "error"))
    ensures var r := GetWeatherByCoords(env, state, storage, lat, lon, Reply(status, Some(data)));
      && r.result == Error(LocationNotFound) && r.state.error == Some(LocationNotFound)
      && r.storage == GetCached(env, storage, CoordsKey(lat, lon)).1
  {
    MissOutcome(env, state, storage, CoordsKey(lat, lon), LocationNotFound, Reply(status, Some(data)));
  }
}

=== FILE: json.dfy ===
/** JSON values as the store and the browser hold them, with the two pieces of
    JavaScript semantics the code applies to them: truthiness and `String(v)`.
    Numbers are integral here; the weather payloads are opaque values. */
module Json {
  import opened Optional
  import Text

  datatype Json =
    | JNull
    | JBool(b: bool)
    | JNum(n: int)
    | JStr(s: string)
    | JArr(items: seq<Json>)
    | JObj(fields: map<string, Json>)

  /** JavaScript truthiness (`if (v)`, `!v`, `v || w`). */
  predicate Truthy(j: Json) {
    match j
    case JNull => false
    case JBool(b) => b
    case JNum(n) => n != 0
    case JStr(s) => s != ""
    case _ => true
  }

  /** Truthiness of a value that may be `undefined`. */
  predicate TruthyOpt(o: Option<Json>) {
    o.Some? && Truthy(o.value)
  }

  /** `a || b`: the first operand when it is truthy, the second otherwise. */
  function Or(a: Option<Json>, b: Option<Json>): (r: Option<Json>)
    ensures TruthyOpt(a) ==> r == a
    ensures !TruthyOpt(a) ==> r == b
  {
    if TruthyOpt(a) then a else b
  }

  /** Property access `v.name` on a value that is not `null`: an object's own
      field, `undefined` on anything else. */
  function Prop(j: Json, name: string): Option<Json> {
    if j.JObj? && name in j.fields then Some(j.fields[name]) else None
  }

  /** Optional chaining `v?.name` on a value that may be `undefined`. */
  function OptProp(o: Option<Json>, name: string): Option<Json> {
    if o.Some? && !o.value.JNull? then Prop(o.value, name) else None
  }

  /** `String(v)`, as a template literal renders a value. */
  function ToJsString(j: Json): string
    decreases j
  {
    match j
    case JNull => "null"
    case JBool(b) => if b then "true" else "false"
    case JNum(n) => Text.IntToString(n)
    case JStr(s) => s
    case JArr(items) =>
      Join(seq(|items|, i requires 0 <= i < |items| =>
        if items[i].JNull? then "" else ToJsString(items[i])))
    case JObj(_) => "[object Object]"
  }

  /** `Array.prototype.join(",")` over already rendered elements. */
  function Join(parts: seq<string>): string {
    if |parts| == 0 then ""
    else if |parts| == 1 then parts[0]
    else parts[0] + "," + Join(parts[1..])
  }
}

=== FILE: kvstore.dfy ===
/** The remote key-value store behind the Upstash client, as the adapter in
    server/utils/redis.ts drives it. Keys hold JSON values with an optional
    expiry instant (epoch milliseconds); `order` is the sequence in which
    SCAN walks the keyspace; `reachable` is false when every request to the
    store fails. Each command returns its reply together with the store
    after it, or the fault the client raises instead. */
module KvStore {
  import opened Optional
  import opened Json

  datatype Entry = Entry(value: Json, expiresAt: Option<int>)

  datatype Store = Store(entries: map<string, Entry>, order: seq<string>, reachable: bool)

  /** Why a command raised: the store could not be reached, or it refused the
      command (a non-integer under INCR, a non-positive SET expiry, COUNT 0). */
  datatype Fault = Unreachable | CommandError

  datatype Reply<+T> = Done(value: T, store: Store) | Failed(fault: Fault)

  predicate Distinct(s: seq<string>) {
    forall i, j :: 0 <= i < j < |s| ==> s[i] != s[j]
  }

  /** SCAN's walk visits every key exactly once. */
  ghost predicate Valid(st: Store) {
    && Distinct(st.order)
    && (forall k :: k in st.entries <==> k in st.order)
  }

  /** A key is live while it exists and its expiry instant has not passed;
      Redis treats a key as expired once the clock is strictly past it. */
  predicate Live(st: Store, now: int, k: string) {
    && k in st.entries
    && (st.entries[k].expiresAt.None? || now <= st.entries[k].expiresAt.value)
  }

  function Put(st: Store, k: string, e: Entry): (r: Store)
    ensures r.entries == st.entries[k := e] && r.reachable == st.reachable
  {
    st.(entries := st.entries[k := e],
        order := if k in st.entries then st.order else st.order + [k])
  }

  function Without(s: seq<string>, k: string): seq<string> {
    if |s| == 0 then []
    else if s[0] == k then Without(s[1..], k)
    else [s[0]] + Without(s[1..], k)
  }

  /** Dropping `k` keeps every other element, and repeats none when the
      input repeats none. */
  lemma {:induction false} WithoutMembers(s: seq<string>, k: string)
    ensures forall x :: x in Without(s, k) <==> x in s && x != k
    ensures Distinct(s) ==> Distinct(Without(s, k))
  {
    if |s| > 0 {
      WithoutMembers(s[1..], k);
      assert s == [s[0]] + s[1..];
      assert Distinct(s) ==> s[0] !in s[1..];
    }
  }

  function Remove(st: Store, k: string): (r: Store)
    ensures r.entries == st.entries - {k} && r.reachable == st.reachable
  {
    st.(entries := st.entries - {k}, order := Without(st.order, k))
  }

  /** Storing and removing keep the key order in step with the keys. */
  lemma {:induction false} PutKeepsValid(st: Store, k: string, e: Entry)
    requires Valid(st)
    ensures Valid(Put(st, k, e))
  {
  }

  lemma {:induction false} RemoveKeepsValid(st: Store, k: string)
    requires Valid(st)
    ensures Valid(Remove(st, k))
  {
    WithoutMembers(st.order, k);
  }

  // ------------------------------------------------------------ patterns

  /** Redis glob matching for `*` (any run of characters) and `?` (any one
      character); every other pattern character matches itself. Redis's
      `[...]` character classes and `\` escapes are not modelled; the one
      pattern the service uses, `weatheroo:cache:*`, has neither. */
  predicate Glob(p: string, s: string)
    decreases |p| + |s|
  {
    if |p| == 0 then |s| == 0
    else if p[0] == '*' then Glob(p[1..], s) || (|s| > 0 && Glob(p, s[1..]))
    else |s| > 0 && (p[0] == '?' || p[0] == s[0]) && Glob(p[1..], s[1..])
  }

  /** A pattern with no wildcard characters. */
  predicate Literal(p: string) {
    forall i :: 0 <= i < |p| ==> p[i] != '*' && p[i] != '?'
  }

  lemma {:induction false} StarMatchesAll(s: string)
    ensures Glob("*", s)
  {
    if |s| > 0 {
      StarMatchesAll(s[1..]);
    }
  }

  /** `prefix*` matches exactly the keys that start with `prefix`. */
  lemma {:induction false} PrefixPattern(prefix: string, s: string)
    requires Literal(prefix)
    ensures Glob(prefix + "*", s) <==> prefix <= s
  {
    var p := prefix + "*";
    if |prefix| == 0 {
      assert p == "*";
      StarMatchesAll(s);
    } else {
      assert p[0] == prefix[0] && p[1..] == prefix[1..] + "*";
      if |s| > 0 {
        PrefixPattern(prefix[1..], s[1..]);
        assert prefix <= s <==> prefix[0] == s[0] && prefix[1..] <= s[1..];
      }
    }
  }

  /** The live keys of `keys` that match `pattern`, in order. */
  function Matching(st: Store, now: int, pattern: string, keys: seq<string>): seq<string> {
    if |keys| == 0 then []
    else
      (if Live(st, now, keys[0]) && Glob(pattern, keys[0]) then [keys[0]] else [])
      + Matching(st, now, pattern, keys[1..])
  }

  /** The filter keeps exactly the live matching keys, and repeats none when
      the input repeats none. */
  lemma {:induction false} MatchingMembers(st: Store, now: int, pattern: string, keys: seq<string>)
    ensures forall k :: k in Matching(st, now, pattern, keys) <==> k in keys && Live(st, now, k) && Glob(pattern, k)
    ensures Distinct(keys) ==> Distinct(Matching(st, now, pattern, keys))
  {
    if |keys| > 0 {
      MatchingMembers(st, now, pattern, keys[1..]);
      assert keys == [keys[0]] + keys[1..];
      assert Distinct(keys) ==> keys[0] !in keys[1..];
    }
  }

  lemma {:induction false} MatchingAppend(st: Store, now: int, pattern: string, a: seq<string>, b: seq<string>)
    ensures Matching(st, now, pattern, a + b) == Matching(st, now, pattern, a) + Matching(st, now, pattern, b)
  {
    if |a| > 0 {
      var head := if Live(st, now, a[0]) && Glob(pattern, a[0]) then [a[0]] else [];
      assert (a + b)[0] == a[0];
      assert (a + b)[1..] == a[1..] + b;
      MatchingAppend(st, now, pattern, a[1..], b);
      calc {
        Matching(st, now, pattern, a + b);
        head + Matching(st, now, pattern, a[1..] + b);
        head + (Matching(st, now, pattern, a[1..]) + Matching(st, now, pattern, b));
        (head + Matching(st, now, pattern, a[1..])) + Matching(st, now, pattern, b);
      }
    } else {
      assert a + b == b;
    }
  }

  // ------------------------------------------------------------ commands

  /** SET key value EX seconds. */
  function Set(st: Store, now: int, k: string, v: Json, seconds: int): (r: Reply<()>)
    ensures !st.reachable ==> r == Failed(Unreachable)
    ensures r.Done? <==> st.reachable && seconds > 0
    ensures r.Done? ==> r.store.entries == st.entries[k := Entry(v, Some(now + seconds * 1000))]
  {
    if !st.reachable then Failed(Unreachable)
    else if seconds <= 0 then Failed(CommandError)
    else Done((), Put(st, k, Entry(v, Some(now + seconds * 1000))))
  }

  /** GET key: the value of a live key. */
  function Get(st: Store, now: int, k: string): (r: Reply<Option<Json>>)
    ensures r.Done? <==> st.reachable
    ensures r.Done? ==> r.store == st && (r.value.Some? <==> Live(st, now, k))
  {
    if !st.reachable then Failed(Unreachable)
    else Done(if Live(st, now, k) then Some(st.entries[k].value) else None, st)
  }

  /** EXISTS key: how many of the given keys are live. */
  function Exists(st: Store, now: int, k: string): (r: Reply<int>)
    ensures r.Done? <==> st.reachable
    ensures r.Done? ==> r.store == st && 0 <= r.value <= 1
  {
    if !st.reachable then Failed(Unreachable)
    else Done(if Live(st, now, k) then 1 else 0, st)
  }

  /** DEL key: how many live keys were removed. */
  function Del(st: Store, now: int, k: string): (r: Reply<int>)
    ensures r.Done? <==> st.reachable
    ensures r.Done? ==> r.store.entries == st.entries - {k} && r.store.reachable
  {
    if !st.reachable then Failed(Unreachable)
    else Done(if Live(st, now, k) then 1 else 0, Remove(st, k))
  }

  /** SCAN cursor MATCH pattern COUNT count: the matching live keys among the
      next `count` positions of the walk, and the cursor to continue from,
      which is 0 once the walk has reached its end. */
  function Scan(st: Store, now: int, cursor: nat, pattern: string, count: nat): (r: Reply<(nat, seq<string>)>)
    ensures r.Done? <==> st.reachable && count > 0
    ensures r.Done? ==> r.store == st
    ensures r.Done? && r.value.0 != 0 ==> cursor < r.value.0 < |st.order|
  {
    if !st.reachable then Failed(Unreachable)
    else if count == 0 then Failed(CommandError)
    else if cursor >= |st.order| then Done((0, []), st)
    else
      var end := if cursor + count < |st.order| then cursor + count else |st.order|;
      Done((if end == |st.order| then 0 else end,
            Matching(st, now, pattern, st.order[cursor..end])), st)
  }

  /** INCR key: a missing or expired key starts from 0 and gets no expiry;
      an existing counter keeps its expiry. */
  function Incr(st: Store, now: int, k: string): (r: Reply<int>)
    ensures !st.reachable ==> r == Failed(Unreachable)
    ensures r.Done? ==> r.store.entries.Keys == st.entries.Keys + {k} && r.store.reachable
  {
    if !st.reachable then Failed(Unreachable)
    else if !Live(st, now, k) then Done(1, Put(st, k, Entry(JNum(1), None)))
    else match st.entries[k].value
      case JNum(n) => Done(n + 1, Put(st, k, st.entries[k].(value := JNum(n + 1))))
      case _ => Failed(CommandError)
  }

  /** EXPIRE key seconds: 1 when the key is live; a non-positive timeout
      deletes the key. */
  function Expire(st: Store, now: int, k: string, seconds: int): (r: Reply<int>)
    ensures r.Done? <==> st.reachable
    ensures r.Done? ==> r.store.entries - {k} == st.entries - {k} && r.store.reachable
  {
    if !st.reachable then Failed(Unreachable)
    else if !Live(st, now, k) then Done(0, st)
    else if seconds <= 0 then Done(1, Remove(st, k))
    else Done(1, Put(st, k, st.entries[k].(expiresAt := Some(now + seconds * 1000))))
  }

  /** Every write keeps SCAN's key order in step with the keys. */
  lemma {:induction false} WritesKeepValid(st: Store, now: int, k: string, v: Json, seconds: int)
    requires Valid(st)
    ensures Set(st, now, k, v, seconds).Done? ==> Valid(Set(st, now, k, v, seconds).store)
    ensures Del(st, now, k).Done? ==> Valid(Del(st, now, k).store)
    ensures Incr(st, now, k).Done? ==> Valid(Incr(st, now, k).store)
    ensures Expire(st, now, k, seconds).Done? ==> Valid(Expire(st, now, k, seconds).store)
  {
    PutKeepsValid(st, k, Entry(v, Some(now + seconds * 1000)));
    PutKeepsValid(st, k, Entry(JNum(1), None));
    RemoveKeepsValid(st, k);
    if Live(st, now, k) {
      PutKeepsValid(st, k, st.entries[k].(expiresAt := Some(now + seconds * 1000)));
      if st.entries[k].value.JNum? {
        PutKeepsValid(st, k, st.entries[k].(value := JNum(st.entries[k].value.n + 1)));
      }
    }
  }

  /** TTL key: -2 for a missing key, -1 for a key without expiry, otherwise
      the remaining time rounded to the nearest second. */
  function Ttl(st: Store, now: int, k: string): (r: Reply<int>)
    ensures r.Done? <==> st.reachable
    ensures r.Done? ==> r.store == st && r.value >= -2
  {
    if !st.reachable then Failed(Unreachable)
    else if !Live(st, now, k) then Done(-2, st)
    else match st.entries[k].expiresAt
      case None => Done(-1, st)
      case Some(at) => Done((at - now + 500) / 1000, st)
  }
}

=== FILE: option.dfy ===
/** The optional value shared by every module: `None` stands for JavaScript's
    `null` or `undefined`, `Some` for a present value. */
module Optional {

  datatype Option<+T> = None | Some(value: T) {

    /** The value, or `default` when absent (JavaScript's `x ?? default`). */
    function GetOr(default: T): T {
      match this
      case Some(v) => v
      case None => default
    }
  }
}

=== FILE: probe.dfy ===
/** The operator endpoint server/api/test/rate-limit.ts: one request picks an
    action from its query string and reports on the limiter. `check` reads,
    `simulate` tracks one call, `detailed` adds the raw counters, the cache
    listing and a connection test, and `stress` tracks up to `count` calls,
    stopping at the first one after which the limiter reports over limit.
    Every branch runs at one frozen instant; timestamps are not modelled. */
module RateLimitProbe {
  import opened Optional
  import opened KvStore
  import opened Redis
  import opened RateLimit
  import Text

  /** `parseInt(query.count) || 1`: NaN and 0 both fall back to 1. A missing
      parameter reaches `parseInt` as `undefined`, which is NaN. */
  function ParseCount(param: Option<string>): (n: int)
    ensures n != 0
    ensures param.None? ==> n == 1
    ensures param.Some? ==>
      match Text.ParseInt(param.value)
      case None => n == 1
      case Some(v) => n == (if v == 0 then 1 else v)
  {
    match param
    case None => 1
    case Some(text) =>
      match Text.ParseInt(text)
      case None => 1
      case Some(v) => if v == 0 then 1 else v
  }

  /** A count written as a numeral is read back as itself, except that 0
      becomes 1. */
  lemma {:induction false} ParseCountOfNumeral(n: int)
    ensures ParseCount(Some(Text.IntToString(n))) == if n == 0 then 1 else n
  {
    Text.ParseIntRoundTrip(n);
  }

  // ------------------------------------------------------------ the stress loop

  /** One entry of the stress results. */
  datatype CallRecord = CallRecord(call: int, tracked: bool, isLimited: bool, minuteCount: int, dailyCount: int)

  /** The frozen instant a stress run works at: the epoch milliseconds and
      the two counter keys they select. The loop is stated over any such
      triple so that its proofs never look inside the key strings. */
  datatype Instant = Instant(now: int, minuteKey: string, dailyKey: string)

  function InstantOf(clock: Clock): (t: Instant)
    ensures t.minuteKey != t.dailyKey
  {
    WindowKeysDiffer(clock);
    Instant(clock.epochMs, MinuteWindowKey(clock), DailyWindowKey(clock))
  }

  /** One pass of the stress loop body: track a call (which always reports
      `true`), then read the stats and the limit, and record them as call
      `i + 1`. */
  function StressStep(st: Store, t: Instant, i: int): (r: (CallRecord, Store))
    ensures r.0.call == i + 1 && r.0.tracked
    ensures !st.reachable ==> r.1 == st
  {
    var s1 := CountCall(st, t.now, t.minuteKey, t.dailyKey);
    var after := UsageAt(s1, t.now, t.minuteKey, t.dailyKey);
    (CallRecord(i + 1, true, LimitedAt(s1, t.now, t.minuteKey, t.dailyKey),
                after.currentPeriod.count, after.daily.count), s1)
  }

  /** At the clock's own instant the pass is the loop body as written:
      `trackApiCall`, then `getUsageStats` and `isRateLimited`. */
  lemma {:induction false} StressStepIsLoopBody(st: Store, clock: Clock, i: int)
    ensures var (tracked, s1) := TrackApiCall(st, clock);
      var after := GetUsageStats(s1, clock);
      StressStep(st, InstantOf(clock), i)
        == (CallRecord(i + 1, tracked, IsRateLimited(s1, clock), after.currentPeriod.count, after.daily.count), s1)
  {
  }

  /** A loop body maps a store and a 0-based iteration to a record and the
      store after it. */
  type Pass = (Store, int) -> (CallRecord, Store)

  function PassAt(t: Instant): (pass: Pass)
    ensures Numbered(pass)
  {
    (st: Store, i: int) => StressStep(st, t, i)
  }

  /** The shape every pass has: record `i + 1`, tracked, and an unreachable
      store left alone. */
  ghost predicate Numbered(pass: Pass) {
    forall st: Store, i: int {:trigger pass(st, i)} ::
      && pass(st, i).0.call == i + 1 && pass(st, i).0.tracked
      && (!st.reachable ==> pass(st, i).1 == st)
  }

  /** The stress loop from iteration `i` (0-based) to `count`, stopping after
      the first limited record. Returns the records and the store after the
      loop. */
  function StressFrom(pass: Pass, st: Store, i: int, count: int): (r: (seq<CallRecord>, Store))
    requires Numbered(pass)
    ensures |r.0| <= (if count > i then count - i else 0)
    ensures forall j :: 0 <= j < |r.0| ==> r.0[j].call == i + j + 1 && r.0[j].tracked
    ensures forall j :: 0 <= j < |r.0| - 1 ==> !r.0[j].isLimited
    ensures count > i && |r.0| < count - i ==> |r.0| > 0 && r.0[|r.0| - 1].isLimited
    ensures !st.reachable ==> r.1 == st
    decreases count - i
  {
    if i >= count then ([], st)
    else
      var (record, s1) := pass(st, i);
      if record.isLimited then ([record], s1)
      else
        var (rest, s2) := StressFrom(pass, s1, i + 1, count);
        PrependRecord(record, rest, i);
        ([record] + rest, s2)
  }

  /** The shape facts of the loop's records carry over to one more unlimited
      record in front. */
  lemma {:induction false} PrependRecord(record: CallRecord, rest: seq<CallRecord>, i: int)
    requires record.call == i + 1 && record.tracked && !record.isLimited
    requires forall j :: 0 <= j < |rest| ==> rest[j].call == i + 1 + j + 1 && rest[j].tracked
    requires forall j :: 0 <= j < |rest| - 1 ==> !rest[j].isLimited
    ensures forall j :: 0 <= j < |[record] + rest| ==> ([record] + rest)[j].call == i + j + 1 && ([record] + rest)[j].tracked
    ensures forall j :: 0 <= j < |[record] + rest| - 1 ==> !([record] + rest)[j].isLimited
    ensures |rest| > 0 ==> ([record] + rest)[|rest|] == rest[|rest| - 1]
  {
  }

  /** The counting law of a pass at instant `t`: on a reachable store whose
      two counters hold integers, both go up by one and the record is limited
      exactly when one of them reaches its limit. */
  ghost predicate Counting(pass: Pass, t: Instant) {
    forall st: Store, i: int {:trigger pass(st, i)} ::
      st.reachable && CounterValue(st, t.now, t.minuteKey).Some? && CounterValue(st, t.now, t.dailyKey).Some? ==>
        var m, d := CounterValue(st, t.now, t.minuteKey).value, CounterValue(st, t.now, t.dailyKey).value;
        && pass(st, i).1.reachable
        && CounterValue(pass(st, i).1, t.now, t.minuteKey) == Some(m + 1)
        && CounterValue(pass(st, i).1, t.now, t.dailyKey) == Some(d + 1)
        && (pass(st, i).0.isLimited <==> m + 1 >= MinuteLimit || d + 1 >= DailyLimit)
  }

  /** The loop body obeys the counting law on any two distinct keys. */
  lemma {:induction false} PassAtCounting(t: Instant)
    requires t.minuteKey != t.dailyKey
    ensures Counting(PassAt(t), t)
  {
    forall st: Store, i: int | st.reachable && CounterValue(st, t.now, t.minuteKey).Some? && CounterValue(st, t.now, t.dailyKey).Some?
      ensures var m, d := CounterValue(st, t.now, t.minuteKey).value, CounterValue(st, t.now, t.dailyKey).value;
        && PassAt(t)(st, i).1.reachable
        && CounterValue(PassAt(t)(st, i).1, t.now, t.minuteKey) == Some(m + 1)
        && CounterValue(PassAt(t)(st, i).1, t.now, t.dailyKey) == Some(d + 1)
        && (PassAt(t)(st, i).0.isLimited <==> m + 1 >= MinuteLimit || d + 1 >= DailyLimit)
    {
      StepAtCounts(st, t, i);
    }
  }

  /** One pass on distinct keys adds one to both counters, and is limited
      exactly when one of them reaches its limit. */
  lemma {:induction false} StepAtCounts(st: Store, t: Instant, i: int)
    requires st.reachable && t.minuteKey != t.dailyKey
    requires CounterValue(st, t.now, t.minuteKey).Some? && CounterValue(st, t.now, t.dailyKey).Some?
    ensures var m, d := CounterValue(st, t.now, t.minuteKey).value, CounterValue(st, t.now, t.dailyKey).value;
      var (record, s1) := StressStep(st, t, i);
      && s1.reachable
      && CounterValue(s1, t.now, t.minuteKey) == Some(m + 1)
      && CounterValue(s1, t.now, t.dailyKey) == Some(d + 1)
      && (record.isLimited <==> m + 1 >= MinuteLimit || d + 1 >= DailyLimit)
  {
    CountCallMinute(st, t.now, t.minuteKey, t.dailyKey);
    CountCallDaily(st, t.now, t.minuteKey, t.dailyKey);
  }

  function Min(a: int, b: int): int { if a <= b then a else b }

  /** For a pass that obeys the counting law, with the minute count at `m`
      and the daily count at `d`, both under their limits, the loop makes
      exactly `min(50 - m, 950 - d)` calls when `count` leaves room for them,
      and the last of them is limited. */
  lemma {:induction false} StressStopsAtLimit(pass: Pass, t: Instant, st: Store, i: int, count: int, m: int, d: int)
    requires Numbered(pass) && Counting(pass, t)
    requires st.reachable
    requires CounterValue(st, t.now, t.minuteKey) == Some(m) && CounterValue(st, t.now, t.dailyKey) == Some(d)
    requires 0 <= m < MinuteLimit && 0 <= d < DailyLimit
    requires i + Min(MinuteLimit - m, DailyLimit - d) <= count
    ensures |StressFrom(pass, st, i, count).0| == Min(MinuteLimit - m, DailyLimit - d)
    ensures StressFrom(pass, st, i, count).0[Min(MinuteLimit - m, DailyLimit - d) - 1].isLimited
    decreases Min(MinuteLimit - m, DailyLimit - d)
  {
    var (record, s1) := pass(st, i);
    var k := Min(MinuteLimit - m, DailyLimit - d);
    if m + 1 < MinuteLimit && d + 1 < DailyLimit {
      StressStopsAtLimit(pass, t, s1, i + 1, count, m + 1, d + 1);
      var rest := StressFrom(pass, s1, i + 1, count).0;
      assert |rest| == k - 1;
      assert StressFrom(pass, st, i, count).0 == [record] + rest;
      assert ([record] + rest)[k - 1] == rest[k - 2];
    } else {
      assert k == 1;
      assert StressFrom(pass, st, i, count).0 == [record];
    }
  }

  /** From a fresh minute window, with at most 900 calls already made today,
      a stress run of at least 50 calls stops at call 50. */
  lemma {:induction false} FreshWindowStopsAtFifty(st: Store, clock: Clock, count: int, d: int)
    requires st.reachable
    requires MinuteCounter(st, clock) == Some(0) && DailyCounter(st, clock) == Some(d)
    requires 0 <= d && d + MinuteLimit <= DailyLimit
    requires count >= MinuteLimit
    ensures |StressFrom(PassAt(InstantOf(clock)), st, 0, count).0| == 50
    ensures StressFrom(PassAt(InstantOf(clock)), st, 0, count).0[49].call == 50
    ensures StressFrom(PassAt(InstantOf(clock)), st, 0, count).0[49].isLimited
  {
    var t := InstantOf(clock);
    PassAtCounting(t);
    StressStopsAtLimit(PassAt(t), t, st, 0, count, 0, d);
  }

  /** The `summary` block of a stress reply. */
  datatype Summary = Summary(totalCalls: int, successfulCalls: int, hitRateLimit: bool,
                             minuteUsage: string, dailyUsage: string)

  function CountTracked(results: seq<CallRecord>): (n: nat)
    ensures n <= |results|
  {
    if |results| == 0 then 0
    else (if results[0].tracked then 1 else 0) + CountTracked(results[1..])
  }

  /** `${count}/${limit}`. */
  function Usage(w: Window): string {
    Text.IntToString(w.count) + "/" + Text.IntToString(w.limit)
  }

  function Summarize(results: seq<CallRecord>, final: UsageStats): (s: Summary)
    ensures s.totalCalls == |results| && 0 <= s.successfulCalls <= s.totalCalls
    ensures s.hitRateLimit <==> exists j :: 0 <= j < |results| && results[j].isLimited
  {
    Summary(|results|, CountTracked(results),
            exists j :: 0 <= j < |results| && results[j].isLimited,
            Usage(final.currentPeriod), Usage(final.daily))
  }

  /** For records shaped like the loop's (all tracked, only the last one
      possibly limited), every call counts as successful and the run hit the
      limit exactly when its last record is limited. */
  lemma {:induction false} SummaryOfRun(results: seq<CallRecord>, final: UsageStats)
    requires forall j :: 0 <= j < |results| ==> results[j].tracked
    requires forall j :: 0 <= j < |results| - 1 ==> !results[j].isLimited
    ensures Summarize(results, final).successfulCalls == |results|
    ensures Summarize(results, final).hitRateLimit <==> |results| > 0 && results[|results| - 1].isLimited
  {
    AllTrackedCounted(results);
  }

  lemma {:induction false} AllTrackedCounted(results: seq<CallRecord>)
    requires forall j :: 0 <= j < |results| ==> results[j].tracked
    ensures CountTracked(results) == |results|
  {
    if |results| > 0 {
      AllTrackedCounted(results[1..]);
    }
  }

  // ------------------------------------------------------------ the handler

  /** One counter as the `detailed` action reports it. */
  datatype KeyReport = KeyReport(key: string, counter: int, ttl: int, limit: int)

  /** The reply of each action; timestamps are not modelled. */
  datatype CheckReply = CheckReply(isRateLimited: bool, currentPeriod: Window, daily: Window)

  datatype SimulateReply = SimulateReply(success: bool, before: UsageStats, after: UsageStats)

  datatype DetailedReply = DetailedReply(minute: KeyReport, daily: KeyReport, stats: UsageStats,
                                         cache: CacheStats, connected: bool, operations: Option<Operations>)

  datatype StressReply = StressReply(requestCount: int, results: seq<CallRecord>, initialStats: UsageStats,
                                     finalStats: UsageStats, summary: Summary)

  datatype ProbeReply =
    | Checked(check: CheckReply)
    | Simulated(simulate: SimulateReply)
    | Detailed(detailed: DetailedReply)
    | Stressed(stress: StressReply)
    | InvalidAction(error: string, availableActions: seq<string>)

  const InvalidActionMessage := "Invalid action. Use: check, simulate, detailed, or stress"
  const AvailableActions := ["check", "simulate", "detailed", "stress"]

  /** `check`: the limit and the stats, with the store untouched. */
  function Check(st: Store, clock: Clock): (r: (CheckReply, Store))
    ensures r.1 == st
    ensures r.0.currentPeriod == GetUsageStats(st, clock).currentPeriod && r.0.daily == GetUsageStats(st, clock).daily
    ensures !st.reachable ==> !r.0.isRateLimited
    ensures st.reachable && MinuteCounter(st, clock).Some? && DailyCounter(st, clock).Some? ==>
      (r.0.isRateLimited <==> MinuteCounter(st, clock).value >= MinuteLimit || DailyCounter(st, clock).value >= DailyLimit)
  {
    var stats := GetUsageStats(st, clock);
    var limited := IsRateLimited(st, clock);
    (CheckReply(limited, stats.currentPeriod, stats.daily), st)
  }

  /** `simulate`: the stats before and after tracking one call. */
  function Simulate(st: Store, clock: Clock): (r: (SimulateReply, Store))
    ensures r.0.success
    ensures r.1 == TrackApiCall(st, clock).1
    ensures r.0.before == GetUsageStats(st, clock) && r.0.after == GetUsageStats(r.1, clock)
    ensures !st.reachable ==> r.1 == st && r.0.after == r.0.before
  {
    var before := GetUsageStats(st, clock);
    var (tracked, s1) := TrackApiCall(st, clock);
    (SimulateReply(tracked, before, GetUsageStats(s1, clock)), s1)
  }

  /** A simulated call shows up as one more call in both windows. */
  lemma {:induction false} SimulateAddsOne(st: Store, clock: Clock)
    requires st.reachable && MinuteCounter(st, clock).Some? && DailyCounter(st, clock).Some?
    ensures Simulate(st, clock).0.after.currentPeriod.count == Simulate(st, clock).0.before.currentPeriod.count + 1
    ensures Simulate(st, clock).0.after.daily.count == Simulate(st, clock).0.before.daily.count + 1
  {
    TrackApiCallMinute(st, clock);
    TrackApiCallDaily(st, clock);
    UsageStatsCounts(st, clock);
    UsageStatsCounts(TrackApiCall(st, clock).1, clock);
  }

  /** `detailed`: the raw counters and TTLs of both keys, the stats, the
      cache listing and the connection test. The test's throwaway key is
      written and deleted before the counters are read. */
  function Inspect(st: Store, clock: Clock, config: Config): (r: (DetailedReply, Store))
    ensures r.0.minute.key == MinuteWindowKey(clock) && r.0.minute.limit == MinuteLimit
    ensures r.0.daily.key == DailyWindowKey(clock) && r.0.daily.limit == DailyLimit
    ensures r.0.connected <==> config.url != "" && config.token != ""
    ensures r.0.operations.Some? <==> r.0.connected
    ensures !st.reachable ==>
      && r.1 == st
      && r.0.minute.counter == 0 && r.0.minute.ttl == -2
      && r.0.daily.counter == 0 && r.0.daily.ttl == -2
    ensures r.0.stats == GetUsageStats(st, clock) && r.0.cache == GetCacheStats(st, clock)
    ensures r.1 == TestRedisConnection(st, clock.epochMs, config).1
    ensures r.0.minute.counter == GetCounter(r.1, clock.epochMs, MinuteWindowKey(clock))
         && r.0.minute.ttl == GetTtl(r.1, clock.epochMs, MinuteWindowKey(clock))
    ensures r.0.daily.counter == GetCounter(r.1, clock.epochMs, DailyWindowKey(clock))
         && r.0.daily.ttl == GetTtl(r.1, clock.epochMs, DailyWindowKey(clock))
  {
    var now := clock.epochMs;
    var stats := GetUsageStats(st, clock);
    var cache := GetCacheStats(st, clock);
    var (health, s1) := TestRedisConnection(st, now, config);
    var minuteKey := MinuteWindowKey(clock);
    var dailyKey := DailyWindowKey(clock);
    var minute := KeyReport(minuteKey, GetCounter(s1, now, minuteKey), GetTtl(s1, now, minuteKey), MinuteLimit);
    var daily := KeyReport(dailyKey, GetCounter(s1, now, dailyKey), GetTtl(s1, now, dailyKey), DailyLimit);
    var operations := if health.Connected? then Some(health.operations) else None;
    (DetailedReply(minute, daily, stats, cache, health.Connected?, operations), s1)
  }

  /** The connection test's throwaway key is never a counter key, so the
      counters and TTLs `detailed` reports are those of the store before the
      request. */
  lemma {:induction false} InspectReadsCounters(st: Store, clock: Clock, config: Config)
    ensures var r := Inspect(st, clock, config).0;
      && r.minute.counter == GetCounter(st, clock.epochMs, MinuteWindowKey(clock))
      && r.minute.ttl == GetTtl(st, clock.epochMs, MinuteWindowKey(clock))
      && r.daily.counter == GetCounter(st, clock.epochMs, DailyWindowKey(clock))
      && r.daily.ttl == GetTtl(st, clock.epochMs, DailyWindowKey(clock))
  {
    ConnectionTestKeepsCounter(st, clock.epochMs, config, MinuteWindowKey(clock));
    ConnectionTestKeepsCounter(st, clock.epochMs, config, DailyWindowKey(clock));
  }

  /** The connection test leaves every `weatheroo:` key as it found it:
      its throwaway key `test:<now>` starts with another letter. */
  lemma {:induction false} ConnectionTestKeepsCounter(st: Store, now: int, config: Config, key: string)
    requires |key| > 0 && key[0] == 'w'
    ensures var s1 := TestRedisConnection(st, now, config).1;
      GetCounter(s1, now, key) == GetCounter(st, now, key) && GetTtl(s1, now, key) == GetTtl(st, now, key)
  {
    assert TestKey(now)[0] == 't';
  }

  /** `stress`: the loop, then the stats it ended with and the summary. */
  function Stress(st: Store, clock: Clock, count: int): (r: (StressReply, Store))
    ensures r.0.requestCount == count
    ensures r.0.results == StressFrom(PassAt(InstantOf(clock)), st, 0, count).0
    ensures r.1 == StressFrom(PassAt(InstantOf(clock)), st, 0, count).1
    ensures r.0.initialStats == GetUsageStats(st, clock)
    ensures r.0.summary.totalCalls == r.0.summary.successfulCalls == |r.0.results|
    ensures r.0.summary.hitRateLimit <==> |r.0.results| > 0 && r.0.results[|r.0.results| - 1].isLimited
    ensures r.0.finalStats == GetUsageStats(r.1, clock)
  {
    var initial := GetUsageStats(st, clock);
    var (results, s1) := StressFrom(PassAt(InstantOf(clock)), st, 0, count);
    var final := GetUsageStats(s1, clock);
    SummaryOfRun(results, final);
    (StressReply(count, results, initial, final, Summarize(results, final)), s1)
  }

  /** The handler: dispatch on `action`; an unknown or missing action gets
      the error and the list of the four actions, and leaves the store. */
  function Handle(st: Store, clock: Clock, config: Config, action: Option<string>, count: Option<string>): (r: (ProbeReply, Store))
    ensures action.None? || action.value !in AvailableActions ==>
      r == (InvalidAction(InvalidActionMessage, AvailableActions), st)
    ensures action == Some("check") ==> r.1 == st && r == (Checked(Check(st, clock).0), Check(st, clock).1)
    ensures action == Some("simulate") ==> r == (Simulated(Simulate(st, clock).0), Simulate(st, clock).1)
    ensures action == Some("detailed") ==>
      r == (Detailed(Inspect(st, clock, config).0), Inspect(st, clock, config).1)
    ensures action == Some("stress") ==>
      && r == (Stressed(Stress(st, clock, ParseCount(count)).0), Stress(st, clock, ParseCount(count)).1)
      && r.0.stress.requestCount == ParseCount(count)
  {
    match action
    case Some("check") => var (reply, s) := Check(st, clock); (Checked(reply), s)
    case Some("simulate") => var (reply, s) := Simulate(st, clock); (Simulated(reply), s)
    case Some("detailed") => var (reply, s) := Inspect(st, clock, config); (Detailed(reply), s)
    case Some("stress") => var (reply, s) := Stress(st, clock, ParseCount(count)); (Stressed(reply), s)
    case _ => (InvalidAction(InvalidActionMessage, AvailableActions), st)
  }
}

=== FILE: ratelimit.dfy ===
/** The fixed-window rate limiter and the server-side weather cache of
    server/api/utils/rateLimit.ts, over the store helpers. Two counters are
    kept per instant: one per minute of the epoch and one per local calendar
    day; each is created by its first increment and expires with its window.
    Cached weather lives under `weatheroo:cache:` for 30 minutes. */
module RateLimit {
  import opened Optional
  import opened Json
  import opened KvStore
  import opened Redis
  import Text

  const CacheDurationSeconds := 30 * 60
  const MinuteWindowSeconds := 60
  const MinuteLimit := 50
  const DailyLimit := 950
  const DaySeconds := 24 * 60 * 60

  const CachePrefix := "weatheroo:cache:"
  const MinutePrefix := "weatheroo:rate:minute:"
  const DailyPrefix := "weatheroo:rate:daily:"

  /** The server's clock at one instant: epoch milliseconds, the local
      calendar date (`month` is `getMonth()`, counted from 0) and the epoch
      milliseconds of the next local midnight. */
  datatype Clock = Clock(epochMs: int, year: int, month: int, day: int, nextMidnightMs: int)

  // ------------------------------------------------------------- window keys

  /** `Math.floor(ms / 60000)`: the minute of the epoch holding `ms`. */
  function MinuteOf(ms: int): (m: int)
    ensures m * 60000 <= ms < m * 60000 + 60000
  {
    ms / 60000
  }

  function MinuteWindowKey(clock: Clock): string {
    MinutePrefix + Text.IntToString(MinuteOf(clock.epochMs))
  }

  /** `${year}-${month + 1}-${day}`, unpadded. */
  function DateText(year: int, month: int, day: int): string {
    Text.IntToString(year) + "-" + Text.IntToString(month + 1) + "-" + Text.IntToString(day)
  }

  function DailyWindowKey(clock: Clock): string {
    DailyPrefix + DateText(clock.year, clock.month, clock.day)
  }

  /** Two instants share a minute key exactly when they fall in the same
      60 000 ms bucket. */
  lemma {:induction false} MinuteKeyIffSameBucket(a: Clock, b: Clock)
    ensures MinuteWindowKey(a) == MinuteWindowKey(b) <==> MinuteOf(a.epochMs) == MinuteOf(b.epochMs)
  {
    var n := |MinutePrefix|;
    assert MinuteWindowKey(a)[n..] == Text.IntToString(MinuteOf(a.epochMs));
    assert MinuteWindowKey(b)[n..] == Text.IntToString(MinuteOf(b.epochMs));
    Text.IntToStringInjective(MinuteOf(a.epochMs), MinuteOf(b.epochMs));
  }

  lemma {:induction false} DashAfterDigits(x: string, y: string)
    requires Text.AllDigits(x)
    ensures (x + "-" + y)[|x|] == '-'
    ensures forall i :: 0 <= i < |x| ==> Text.IsDigit((x + "-" + y)[i])
  {
  }

  /** A string of digits followed by a dash splits back into its two parts. */
  lemma {:induction false} SplitAtDash(x: string, y: string, x': string, y': string)
    requires Text.AllDigits(x) && Text.AllDigits(x')
    requires x + "-" + y == x' + "-" + y'
    ensures x == x' && y == y'
  {
    var s := x + "-" + y;
    DashAfterDigits(x, y);
    DashAfterDigits(x', y');
    if |x| == |x'| {
      assert x == s[..|x|] == x';
      assert y == s[|x| + 1..] == y';
    }
  }

  lemma {:induction false} PrefixCancel(p: string, a: string, b: string)
    requires p + a == p + b
    ensures a == b
  {
    assert a == (p + a)[|p|..];
    assert b == (p + b)[|p|..];
  }

  /** The unpadded date text still tells dates apart: for non-negative
      components, equal texts mean equal dates. */
  lemma {:induction false} DateTextInjective(y: int, m: int, d: int, y': int, m': int, d': int)
    requires y >= 0 && m >= 0 && d >= 0 && y' >= 0 && m' >= 0 && d' >= 0
    requires DateText(y, m, d) == DateText(y', m', d')
    ensures y == y' && m == m' && d == d'
  {
    var ys, ms, ds := Text.IntToString(y), Text.IntToString(m + 1), Text.IntToString(d);
    var ys', ms', ds' := Text.IntToString(y'), Text.IntToString(m' + 1), Text.IntToString(d');
    assert DateText(y, m, d) == ys + "-" + (ms + "-" + ds);
    assert DateText(y', m', d') == ys' + "-" + (ms' + "-" + ds');
    SplitAtDash(ys, ms + "-" + ds, ys', ms' + "-" + ds');
    SplitAtDash(ms, ds, ms', ds');
    Text.IntToStringInjective(y, y');
    Text.IntToStringInjective(m + 1, m' + 1);
    Text.IntToStringInjective(d, d');
  }

  /** Two instants share a daily key exactly when their local dates agree
      (for dates with non-negative components). */
  lemma {:induction false} DailyKeyIffSameDate(a: Clock, b: Clock)
    requires a.year >= 0 && a.month >= 0 && a.day >= 0
    requires b.year >= 0 && b.month >= 0 && b.day >= 0
    ensures DailyWindowKey(a) == DailyWindowKey(b) <==>
      a.year == b.year && a.month == b.month && a.day == b.day
  {
    if DailyWindowKey(a) == DailyWindowKey(b) {
      PrefixCancel(DailyPrefix, DateText(a.year, a.month, a.day), DateText(b.year, b.month, b.day));
      DateTextInjective(a.year, a.month, a.day, b.year, b.month, b.day);
    }
  }

  /** The minute and the daily counter never share a key. */
  lemma {:induction false} WindowKeysDiffer(clock: Clock)
    ensures MinuteWindowKey(clock) != DailyWindowKey(clock)
  {
    assert MinuteWindowKey(clock)[15] == 'm';
    assert DailyWindowKey(clock)[15] == 'd';
  }

  /** Cached weather never lands on a counter key. */
  lemma {:induction false} CacheKeysAreNotCounters(clock: Clock, location: string)
    ensures CachePrefix + location != MinuteWindowKey(clock)
    ensures CachePrefix + location != DailyWindowKey(clock)
  {
    assert (CachePrefix + location)[10] == 'c';
    assert MinuteWindowKey(clock)[10] == 'r';
    assert DailyWindowKey(clock)[10] == 'r';
  }

  // ------------------------------------------------------------ the limiter

  /** The count INCR sees under the current minute key. */
  function MinuteCounter(st: Store, clock: Clock): Option<int> {
    CounterValue(st, clock.epochMs, MinuteWindowKey(clock))
  }

  /** The count INCR sees under the current daily key. */
  function DailyCounter(st: Store, clock: Clock): Option<int> {
    CounterValue(st, clock.epochMs, DailyWindowKey(clock))
  }

  /** `isRateLimited`: over the limit when the minute count has reached 50 or
      the daily count 950. Counter reads absorb store faults as 0, so an
      unreachable store never limits (fail-open). */
  function IsRateLimited(st: Store, clock: Clock): (r: bool)
    ensures !st.reachable ==> !r
    ensures st.reachable && MinuteCounter(st, clock).Some? && DailyCounter(st, clock).Some? ==>
      (r <==> MinuteCounter(st, clock).value >= MinuteLimit || DailyCounter(st, clock).value >= DailyLimit)
  {
    LimitedAt(st, clock.epochMs, MinuteWindowKey(clock), DailyWindowKey(clock))
  }

  /** The limit test on a given pair of counter keys. */
  function LimitedAt(st: Store, now: int, minuteKey: string, dailyKey: string): bool {
    GetCounter(st, now, minuteKey) >= MinuteLimit || GetCounter(st, now, dailyKey) >= DailyLimit
  }

  /** The two increments of a tracked call, for any pair of counter keys. */
  function CountCall(st: Store, now: int, minuteKey: string, dailyKey: string): Store {
    var s1 := IncrementCounter(st, now, minuteKey, MinuteWindowSeconds).1;
    IncrementCounter(s1, now, dailyKey, DaySeconds).1
  }

  /** `trackApiCall`: increment both window counters once. Always reports
      `true`, since the counter helper absorbs store faults itself. */
  function TrackApiCall(st: Store, clock: Clock): (r: (bool, Store))
    ensures r.0
    ensures !st.reachable ==> r.1 == st
    ensures r.1.reachable == st.reachable
  {
    (true, CountCall(st, clock.epochMs, MinuteWindowKey(clock), DailyWindowKey(clock)))
  }

  /** A tracked call keeps SCAN's key order in step with the keys. */
  lemma {:induction false} TrackApiCallKeepsValid(st: Store, clock: Clock)
    requires Valid(st)
    ensures Valid(TrackApiCall(st, clock).1)
  {
    var s1 := IncrementCounter(st, clock.epochMs, MinuteWindowKey(clock), MinuteWindowSeconds).1;
    IncrementCounterKeepsValid(st, clock.epochMs, MinuteWindowKey(clock), MinuteWindowSeconds);
    IncrementCounterKeepsValid(s1, clock.epochMs, DailyWindowKey(clock), DaySeconds);
  }

  /** On distinct keys, the minute counter goes up by one and keeps the
      expiry its creation gave it. */
  lemma {:induction false} CountCallMinute(st: Store, now: int, mk: string, dk: string)
    requires mk != dk && st.reachable && CounterValue(st, now, mk).Some?
    ensures CounterValue(CountCall(st, now, mk, dk), now, mk) == Some(CounterValue(st, now, mk).value + 1)
    ensures CounterValue(st, now, mk) == Some(0) ==>
      mk in CountCall(st, now, mk, dk).entries
      && CountCall(st, now, mk, dk).entries[mk].expiresAt == Some(now + MinuteWindowSeconds * 1000)
  {
    var s1 := IncrementCounter(st, now, mk, MinuteWindowSeconds).1;
    IncrementThenCount(st, now, mk, MinuteWindowSeconds);
    IncrementLeavesOthers(s1, now, dk, DaySeconds, mk);
  }

  /** On distinct keys, the daily counter is untouched by the first
      increment, then goes up by one and gets its expiry if created. */
  lemma {:induction false} CountCallDaily(st: Store, now: int, mk: string, dk: string)
    requires mk != dk && st.reachable && CounterValue(st, now, dk).Some?
    ensures CounterValue(CountCall(st, now, mk, dk), now, dk) == Some(CounterValue(st, now, dk).value + 1)
    ensures CounterValue(st, now, dk) == Some(0) ==>
      dk in CountCall(st, now, mk, dk).entries
      && CountCall(st, now, mk, dk).entries[dk].expiresAt == Some(now + DaySeconds * 1000)
  {
    var s1 := IncrementCounter(st, now, mk, MinuteWindowSeconds).1;
    IncrementLeavesOthers(st, now, mk, MinuteWindowSeconds, dk);
    IncrementThenCount(s1, now, dk, DaySeconds);
  }

  /** One tracked call adds one to the minute counter; a counter it
      creates expires 60 s later. */
  lemma {:induction false} TrackApiCallMinute(st: Store, clock: Clock)
    requires st.reachable && MinuteCounter(st, clock).Some?
    ensures MinuteCounter(TrackApiCall(st, clock).1, clock) == Some(MinuteCounter(st, clock).value + 1)
    ensures MinuteCounter(st, clock) == Some(0) ==>
      && MinuteWindowKey(clock) in TrackApiCall(st, clock).1.entries
      && TrackApiCall(st, clock).1.entries[MinuteWindowKey(clock)].expiresAt
         == Some(clock.epochMs + MinuteWindowSeconds * 1000)
  {
    WindowKeysDiffer(clock);
    CountCallMinute(st, clock.epochMs, MinuteWindowKey(clock), DailyWindowKey(clock));
  }

  /** One tracked call adds one to the daily counter; a counter it creates
      expires 86 400 s later. */
  lemma {:induction false} TrackApiCallDaily(st: Store, clock: Clock)
    requires st.reachable && DailyCounter(st, clock).Some?
    ensures DailyCounter(TrackApiCall(st, clock).1, clock) == Some(DailyCounter(st, clock).value + 1)
    ensures DailyCounter(st, clock) == Some(0) ==>
      && DailyWindowKey(clock) in TrackApiCall(st, clock).1.entries
      && TrackApiCall(st, clock).1.entries[DailyWindowKey(clock)].expiresAt
         == Some(clock.epochMs + DaySeconds * 1000)
  {
    WindowKeysDiffer(clock);
    CountCallDaily(st, clock.epochMs, MinuteWindowKey(clock), DailyWindowKey(clock));
  }

  /** A tracked call touches no key but the two window counters. */
  lemma {:induction false} TrackApiCallLeavesOthers(st: Store, clock: Clock, k: string)
    requires k != MinuteWindowKey(clock) && k != DailyWindowKey(clock)
    ensures var s := TrackApiCall(st, clock).1;
      (k in s.entries <==> k in st.entries) && (k in st.entries ==> s.entries[k] == st.entries[k])
  {
    var s1 := IncrementCounter(st, clock.epochMs, MinuteWindowKey(clock), MinuteWindowSeconds).1;
    IncrementLeavesOthers(st, clock.epochMs, MinuteWindowKey(clock), MinuteWindowSeconds, k);
    IncrementLeavesOthers(s1, clock.epochMs, DailyWindowKey(clock), DaySeconds, k);
  }

  // -------------------------------------------------------------- usage stats

  /** One window of the usage report. `resetAtMs` is the instant the report
      renders with `toISOString`. */
  datatype Window = Window(count: int, limit: int, resetAtMs: int, remaining: int, percentUsed: int)

  datatype UsageStats = UsageStats(currentPeriod: Window, daily: Window)

  /** `Math.round(count / limit * 100)`, computed exactly, halves rounded up. */
  function PercentUsed(count: int, limit: int): (p: int)
    requires limit > 0
    ensures 2 * limit * p - limit <= 200 * count < 2 * limit * p + limit
  {
    var q := (200 * count + limit) / (2 * limit);
    var rem := (200 * count + limit) % (2 * limit);
    assert 200 * count + limit == 2 * limit * q + rem && 0 <= rem < 2 * limit;
    q
  }

  /** The report for one window from its count and the TTL of its key. */
  function MakeWindow(count: int, limit: int, ttl: int, now: int): (w: Window)
    requires limit > 0
    ensures w.count == count && w.limit == limit && w.resetAtMs == now + ttl * 1000
    ensures w.remaining >= 0 && w.remaining >= limit - count
    ensures count <= limit ==> w.remaining + count == limit
    ensures count >= limit ==> w.remaining == 0
    ensures 2 * limit * w.percentUsed - limit <= 200 * count < 2 * limit * w.percentUsed + limit
  {
    Window(count, limit, now + ttl * 1000, if limit - count > 0 then limit - count else 0,
           PercentUsed(count, limit))
  }

  /** `getUsageStats`: counts, limits, reset instants and remaining quota of
      both windows. */
  function GetUsageStats(st: Store, clock: Clock): (s: UsageStats)
    ensures s.currentPeriod.limit == MinuteLimit && s.daily.limit == DailyLimit
    ensures s.currentPeriod.count >= 0 ==> 0 <= s.currentPeriod.remaining <= MinuteLimit
    ensures s.daily.count >= 0 ==> 0 <= s.daily.remaining <= DailyLimit
  {
    UsageAt(st, clock.epochMs, MinuteWindowKey(clock), DailyWindowKey(clock))
  }

  /** The usage report on a given pair of counter keys. */
  function UsageAt(st: Store, now: int, minuteKey: string, dailyKey: string): UsageStats {
    var minuteCount := GetCounter(st, now, minuteKey);
    var dailyCount := GetCounter(st, now, dailyKey);
    var minuteTtl := GetTtl(st, now, minuteKey);
    var dailyTtl := GetTtl(st, now, dailyKey);
    UsageStats(MakeWindow(minuteCount, MinuteLimit, minuteTtl, now),
               MakeWindow(dailyCount, DailyLimit, dailyTtl, now))
  }

  /** The snapshot `getUsageStats` returns from its error handler: nothing
      used, full quota, reset now and at the next local midnight. */
  function DefaultUsageStats(clock: Clock): (s: UsageStats)
    ensures s.currentPeriod.count == 0 && s.currentPeriod.remaining == s.currentPeriod.limit == MinuteLimit
    ensures s.daily.count == 0 && s.daily.remaining == s.daily.limit == DailyLimit
    ensures s.currentPeriod.percentUsed == 0 && s.daily.percentUsed == 0
    ensures s.currentPeriod.resetAtMs == clock.epochMs && s.daily.resetAtMs == clock.nextMidnightMs
  {
    UsageStats(Window(0, MinuteLimit, clock.epochMs, MinuteLimit, 0),
               Window(0, DailyLimit, clock.nextMidnightMs, DailyLimit, 0))
  }

  /** The reported counts are the counters' values. */
  lemma {:induction false} UsageStatsCounts(st: Store, clock: Clock)
    requires st.reachable
    ensures MinuteCounter(st, clock).Some? ==>
      GetUsageStats(st, clock).currentPeriod.count == MinuteCounter(st, clock).value
    ensures DailyCounter(st, clock).Some? ==>
      GetUsageStats(st, clock).daily.count == DailyCounter(st, clock).value
  {
  }

  /** With the store unreachable every read falls back to its default: no
      calls counted, the full quota left, and both reset instants two seconds
      in the past (a TTL of -2). */
  lemma {:induction false} UnreachableUsageStats(st: Store, clock: Clock)
    requires !st.reachable
    ensures var s := GetUsageStats(st, clock);
      && s.currentPeriod.resetAtMs == s.daily.resetAtMs == clock.epochMs - 2000
      && s.currentPeriod.count == 0 && s.currentPeriod.remaining == MinuteLimit
      && s.daily.count == 0 && s.daily.remaining == DailyLimit
      && s.currentPeriod.percentUsed == 0 && s.daily.percentUsed == 0
  {
  }

  /** An unreachable store does not reach that handler (the helpers absorb
      the faults) but yields the same counts and quotas; only the reset
      instants differ, since a TTL of -2 puts both two seconds in the past. */
  lemma {:induction false} UnreachableMinuteStatsMatchDefault(st: Store, clock: Clock)
    requires !st.reachable
    ensures GetUsageStats(st, clock).currentPeriod.(resetAtMs := clock.epochMs)
      == DefaultUsageStats(clock).currentPeriod
  {
    UnreachableUsageStats(st, clock);
  }

  /** The daily half of the same comparison: only the reset instant differs. */
  lemma {:induction false} UnreachableDailyStatsMatchDefault(st: Store, clock: Clock)
    requires !st.reachable
    ensures GetUsageStats(st, clock).daily.(resetAtMs := clock.nextMidnightMs)
      == DefaultUsageStats(clock).daily
  {
    UnreachableUsageStats(st, clock);
  }

  // ------------------------------------------------------------ server cache

  /** What `setCachedWeather` stores: the payload and the instant it was stored. */
  function CacheRecord(data: Json, now: int): Json {
    JObj(map["data" := data, "timestamp" := JNum(now)])
  }

  /** `getCachedWeather` (server): the value under the prefixed key. */
  function GetCachedWeather(st: Store, clock: Clock, location: string): (r: Option<Json>)
    ensures !st.reachable ==> r == None
    ensures var k := CachePrefix + location;
      r.Some? <==>
        && st.reachable && Live(st, clock.epochMs, k)
        && Truthy(st.entries[k].value) && !st.entries[k].value.JStr?
    ensures r.Some? ==>
      Live(st, clock.epochMs, CachePrefix + location) && r.value == st.entries[CachePrefix + location].value
  {
    GetValue(st, clock.epochMs, CachePrefix + location)
  }

  /** `setCachedWeather` (server): store `{data, timestamp: now}` for 30 minutes. */
  function SetCachedWeather(st: Store, clock: Clock, location: string, data: Json): (r: (bool, Store))
    ensures r.0 <==> st.reachable
    ensures r.0 ==> r.1.reachable && r.1.entries == st.entries[CachePrefix + location :=
      Entry(CacheRecord(data, clock.epochMs), Some(clock.epochMs + CacheDurationSeconds * 1000))]
    ensures !r.0 ==> r.1 == st
  {
    SetWithExpiry(st, clock.epochMs, CachePrefix + location, CacheRecord(data, clock.epochMs), CacheDurationSeconds)
  }

  /** Caching a payload keeps SCAN's key order in step with the keys. */
  lemma {:induction false} SetCachedWeatherKeepsValid(st: Store, clock: Clock, location: string, data: Json)
    requires Valid(st)
    ensures Valid(SetCachedWeather(st, clock, location, data).1)
  {
    SetWithExpiryKeepsValid(st, clock.epochMs, CachePrefix + location, CacheRecord(data, clock.epochMs),
                            CacheDurationSeconds);
  }

  /** Within 30 minutes of being cached, a payload reads back as the record
      holding it and its storage instant. */
  lemma {:induction false} ServerCacheRoundTrip(st: Store, clock: Clock, later: Clock, location: string, data: Json)
    requires st.reachable
    requires later.epochMs <= clock.epochMs + CacheDurationSeconds * 1000
    ensures var got := GetCachedWeather(SetCachedWeather(st, clock, location, data).1, later, location);
      && got == Some(CacheRecord(data, clock.epochMs))
      && Prop(got.value, "data") == Some(data)
      && Prop(got.value, "timestamp") == Some(JNum(clock.epochMs))
  {
  }

  lemma {:induction false} CachePatternIsPrefix()
    ensures forall k :: Glob(CachePrefix + "*", k) <==> CachePrefix <= k
  {
    forall k ensures Glob(CachePrefix + "*", k) <==> CachePrefix <= k {
      PrefixPattern(CachePrefix, k);
    }
  }

  /** `getAllCacheKeys`: the scanned keys under the cache prefix. */
  function GetAllCacheKeys(st: Store, clock: Clock): (r: seq<string>)
    ensures !st.reachable ==> r == []
    ensures forall k :: k in r ==> CachePrefix <= k && Live(st, clock.epochMs, k)
  {
    CachePatternIsPrefix();
    ScanKeys(st, clock.epochMs, CachePrefix + "*")
  }

  /** Every live cache key is listed, once. */
  lemma {:induction false} AllCacheKeysComplete(st: Store, clock: Clock)
    requires Valid(st)
    ensures Distinct(GetAllCacheKeys(st, clock))
    ensures forall k :: k in GetAllCacheKeys(st, clock) <==>
      st.reachable && CachePrefix <= k && Live(st, clock.epochMs, k)
  {
    CachePatternIsPrefix();
    ScanKeysComplete(st, clock.epochMs, CachePrefix + "*");
  }

  datatype CacheStats = CacheStats(size: int, keys: seq<string>)

  /** `key.replace(prefix, "")` over a list of keys. */
  function StripCachePrefix(keys: seq<string>): (r: seq<string>)
    ensures |r| == |keys|
    ensures forall i :: 0 <= i < |keys| && CachePrefix <= keys[i] ==> CachePrefix + r[i] == keys[i]
  {
    if |keys| == 0 then []
    else
      (if CachePrefix <= keys[0] then Text.StripPrefix(keys[0], CachePrefix); [Text.ReplaceFirst(keys[0], CachePrefix, "")]
       else [Text.ReplaceFirst(keys[0], CachePrefix, "")])
      + StripCachePrefix(keys[1..])
  }

  /** `getCacheStats`: how many cache keys there are, and their locations
      with the prefix removed. */
  function GetCacheStats(st: Store, clock: Clock): (r: CacheStats)
    ensures var scanned := GetAllCacheKeys(st, clock);
      && r.size == |scanned| == |r.keys|
      && forall i :: 0 <= i < |scanned| ==> CachePrefix + r.keys[i] == scanned[i]
    ensures !st.reachable ==> r == CacheStats(0, [])
  {
    var keys := GetAllCacheKeys(st, clock);
    assert forall i :: 0 <= i < |keys| ==> CachePrefix <= keys[i] by {
      forall i | 0 <= i < |keys| ensures CachePrefix <= keys[i] {
        assert keys[i] in keys;
      }
    }
    CacheStats(|keys|, StripCachePrefix(keys))
  }

  /** The reported locations are exactly those with a live cache entry. */
  lemma {:induction false} CacheStatsComplete(st: Store, clock: Clock, location: string)
    requires Valid(st)
    ensures location in GetCacheStats(st, clock).keys <==>
      st.reachable && Live(st, clock.epochMs, CachePrefix + location)
  {
    var scanned := GetAllCacheKeys(st, clock);
    var r := GetCacheStats(st, clock);
    AllCacheKeysComplete(st, clock);
    if location in r.keys {
      var i :| 0 <= i < |r.keys| && r.keys[i] == location;
      assert CachePrefix + location == scanned[i];
    }
    if st.reachable && Live(st, clock.epochMs, CachePrefix + location) {
      assert CachePrefix <= CachePrefix + location;
      assert CachePrefix + location in scanned;
      var i :| 0 <= i < |scanned| && scanned[i] == CachePrefix + location;
      assert CachePrefix + r.keys[i] == CachePrefix + location;
      assert r.keys[i] == (CachePrefix + r.keys[i])[|CachePrefix|..];
    }
  }
}

=== FILE: redis.dfy ===
/** The helpers of server/utils/redis.ts. Each issues one or two store
    commands and absorbs every fault into a fixed default instead of raising:
    `false` for writes, null (`None`) for reads, 0 for counters, -2 for a TTL
    and the empty list for a scan. Writes return the store after them. */
module Redis {
  import opened Optional
  import opened Json
  import opened KvStore
  import Text

  /** The COUNT hint `scanKeys` passes to every SCAN page. */
  const ScanPageSize: nat := 100

  /** `setWithExpiry`: store `value` under `key` for `expirySeconds`. */
  function SetWithExpiry(st: Store, now: int, key: string, value: Json, expirySeconds: int): (r: (bool, Store))
    ensures r.0 <==> st.reachable && expirySeconds > 0
    ensures r.0 ==> r.1.reachable
    ensures r.0 ==> r.1.entries == st.entries[key := Entry(value, Some(now + expirySeconds * 1000))]
    ensures !r.0 ==> r.1 == st
  {
    match Set(st, now, key, value, expirySeconds)
    case Done(_, s) => (true, s)
    case Failed(_) => (false, st)
  }

  /** `getValue`: the value of a live key. A falsy value reads as null. A value
      that is itself a string is parsed a second time by the helper; the model
      counts that second parse as failed, so such a value also reads as null. */
  function GetValue(st: Store, now: int, key: string): (r: Option<Json>)
    ensures r.Some? <==>
      && st.reachable && Live(st, now, key)
      && Truthy(st.entries[key].value) && !st.entries[key].value.JStr?
    ensures r.Some? ==> r.value == st.entries[key].value
  {
    match Get(st, now, key)
    case Failed(_) => None
    case Done(data, _) =>
      if data.None? || !Truthy(data.value) then None
      else if data.value.JStr? then None
      else data
  }

  /** A value written by `setWithExpiry` reads back unchanged until it expires,
      provided it is one `getValue` hands back at all (truthy, not a string). */
  lemma {:induction false} SetThenGet(st: Store, now: int, later: int, key: string, value: Json, expirySeconds: int)
    requires st.reachable && expirySeconds > 0
    requires later <= now + expirySeconds * 1000
    requires Truthy(value) && !value.JStr?
    ensures GetValue(SetWithExpiry(st, now, key, value, expirySeconds).1, later, key) == Some(value)
  {
  }

  /** `keyExists`: EXISTS answered 1. */
  function KeyExists(st: Store, now: int, key: string): (r: bool)
    ensures r <==> st.reachable && Live(st, now, key)
  {
    match Exists(st, now, key)
    case Done(n, _) => n == 1
    case Failed(_) => false
  }

  /** `deleteKey`. */
  function DeleteKey(st: Store, now: int, key: string): (r: (bool, Store))
    ensures r.0 <==> st.reachable
    ensures r.0 ==> r.1.entries == st.entries - {key} && r.1.reachable
    ensures !r.0 ==> r.1 == st
  {
    match Del(st, now, key)
    case Done(_, s) => (true, s)
    case Failed(_) => (false, st)
  }

  /** The do/while loop of `scanKeys`, resumed at `cursor`: request a page,
      append its keys, and stop once the returned cursor is 0. `None` when a
      page request raises. */
  function ScanLoop(st: Store, now: int, pattern: string, cursor: nat): (r: Option<seq<string>>)
    ensures r.Some? <==> st.reachable
    ensures r.Some? && cursor <= |st.order| ==> r.value == Matching(st, now, pattern, st.order[cursor..])
    decreases |st.order| - cursor
  {
    match Scan(st, now, cursor, pattern, ScanPageSize)
    case Failed(_) => None
    case Done((next, keys), _) =>
      if next == 0 then
        assert cursor < |st.order| ==> st.order[cursor..] == st.order[cursor..|st.order|];
        Some(keys)
      else
        match ScanLoop(st, now, pattern, next)
        case None => None
        case Some(rest) =>
          assert st.order[cursor..] == st.order[cursor..next] + st.order[next..];
          MatchingAppend(st, now, pattern, st.order[cursor..next], st.order[next..]);
          Some(keys + rest)
  }

  /** `scanKeys`: every live key matching `pattern`, or `[]` when the store
      cannot be reached. */
  function ScanKeys(st: Store, now: int, pattern: string): (r: seq<string>)
    ensures !st.reachable ==> r == []
    ensures st.reachable ==> r == Matching(st, now, pattern, st.order)
    ensures forall k :: k in r ==> Live(st, now, k) && Glob(pattern, k)
  {
    assert st.order[0..] == st.order;
    MatchingMembers(st, now, pattern, st.order);
    ScanLoop(st, now, pattern, 0).GetOr([])
  }

  /** The scan visits the whole keyspace: it lists each live matching key
      exactly once and nothing else. */
  lemma {:induction false} ScanKeysComplete(st: Store, now: int, pattern: string)
    requires Valid(st)
    ensures Distinct(ScanKeys(st, now, pattern))
    ensures forall k :: k in ScanKeys(st, now, pattern) <==>
      st.reachable && k in st.entries && Live(st, now, k) && Glob(pattern, k)
  {
    MatchingMembers(st, now, pattern, st.order);
  }

  /** The count INCR sees under `key`: 0 for a missing or expired key, the
      integer it holds, or `None` when it holds a value INCR rejects. */
  function CounterValue(st: Store, now: int, key: string): Option<int> {
    if !Live(st, now, key) then Some(0)
    else match st.entries[key].value
      case JNum(n) => Some(n)
      case _ => None
  }

  /** `incrementCounter`: INCR, then EXPIRE only when the new count is 1. */
  function IncrementCounter(st: Store, now: int, key: string, expirySeconds: int): (r: (int, Store))
    ensures !st.reachable || CounterValue(st, now, key).None? ==> r == (0, st)
    ensures st.reachable && CounterValue(st, now, key).Some? ==>
      r.0 == CounterValue(st, now, key).value + 1 && r.1.reachable
  {
    match Incr(st, now, key)
    case Failed(_) => (0, st)
    case Done(value, s1) =>
      if value == 1 then
        match Expire(s1, now, key, expirySeconds)
        case Failed(_) => (0, s1)
        case Done(_, s2) => (value, s2)
      else (value, s1)
  }

  /** What an increment does to the store: only `key` changes; it holds the
      new count and keeps its expiry, unless the new count is 1 (the counter
      was missing, expired or held 0), in which case it gets a fresh expiry,
      or is deleted at once when the expiry is not positive. */
  lemma {:induction false} IncrementCounterEffect(st: Store, now: int, key: string, expirySeconds: int)
    requires st.reachable && CounterValue(st, now, key).Some?
    ensures IncrementCounter(st, now, key, expirySeconds).1.entries - {key} == st.entries - {key}
    ensures CounterValue(st, now, key).value != 0 ==>
      && Live(IncrementCounter(st, now, key, expirySeconds).1, now, key)
      && IncrementCounter(st, now, key, expirySeconds).1.entries[key]
         == Entry(JNum(CounterValue(st, now, key).value + 1), st.entries[key].expiresAt)
    ensures CounterValue(st, now, key).value == 0 && expirySeconds > 0 ==>
      && Live(IncrementCounter(st, now, key, expirySeconds).1, now, key)
      && IncrementCounter(st, now, key, expirySeconds).1.entries[key]
         == Entry(JNum(1), Some(now + expirySeconds * 1000))
    ensures CounterValue(st, now, key).value == 0 && expirySeconds <= 0 ==>
      key !in IncrementCounter(st, now, key, expirySeconds).1.entries
  {
  }

  /** Incrementing a counter keeps SCAN's key order in step with the keys. */
  lemma {:induction false} IncrementCounterKeepsValid(st: Store, now: int, key: string, expirySeconds: int)
    requires Valid(st)
    ensures Valid(IncrementCounter(st, now, key, expirySeconds).1)
  {
    WritesKeepValid(st, now, key, JNull, expirySeconds);
    match Incr(st, now, key)
    case Failed(_) =>
    case Done(_, s1) => WritesKeepValid(s1, now, key, JNull, expirySeconds);
  }

  /** Incrementing one counter leaves every other key as it was. */
  lemma {:induction false} IncrementLeavesOthers(st: Store, now: int, key: string, expirySeconds: int, other: string)
    requires other != key
    ensures var s := IncrementCounter(st, now, key, expirySeconds).1;
      && s.reachable == st.reachable
      && (other in s.entries <==> other in st.entries)
      && (other in st.entries ==> s.entries[other] == st.entries[other])
      && CounterValue(s, now, other) == CounterValue(st, now, other)
  {
    var s := IncrementCounter(st, now, key, expirySeconds).1;
    if st.reachable && CounterValue(st, now, key).Some? {
      IncrementCounterEffect(st, now, key, expirySeconds);
      assert other in s.entries <==> other in s.entries - {key};
      assert other in st.entries <==> other in st.entries - {key};
    }
  }

  /** Reading the counter back after an increment with a positive expiry
      gives one more than before; a counter the increment brings to 1
      carries that expiry. */
  lemma {:induction false} IncrementThenCount(st: Store, now: int, key: string, expirySeconds: int)
    requires st.reachable && CounterValue(st, now, key).Some? && expirySeconds > 0
    ensures var s := IncrementCounter(st, now, key, expirySeconds).1;
      && s.reachable
      && CounterValue(s, now, key) == Some(CounterValue(st, now, key).value + 1)
      && (CounterValue(st, now, key) == Some(0) ==>
            key in s.entries && s.entries[key].expiresAt == Some(now + expirySeconds * 1000))
  {
    IncrementCounterEffect(st, now, key, expirySeconds);
  }

  /** `getCounter`: the integer under `key`, 0 when there is none. */
  function GetCounter(st: Store, now: int, key: string): (r: int)
    ensures !st.reachable || !Live(st, now, key) ==> r == 0
    ensures st.reachable && CounterValue(st, now, key).Some? ==> r == CounterValue(st, now, key).value
  {
    match Get(st, now, key)
    case Failed(_) => 0
    case Done(Some(JNum(n)), _) => n
    case Done(_, _) => 0
  }

  /** `getTTL`: -2 when the key is missing or the store cannot be reached, -1
      when the key never expires, else the seconds left, rounded to nearest. */
  function GetTtl(st: Store, now: int, key: string): (r: int)
    ensures !st.reachable || !Live(st, now, key) ==> r == -2
    ensures st.reachable && Live(st, now, key) && st.entries[key].expiresAt.None? ==> r == -1
    ensures st.reachable && Live(st, now, key) && st.entries[key].expiresAt.Some? ==>
      var left := st.entries[key].expiresAt.value - now;
      r >= 0 && r * 1000 - 500 <= left < r * 1000 + 500
  {
    match Ttl(st, now, key)
    case Done(t, _) => t
    case Failed(_) => -2
  }

  // ------------------------------------------------------ connection test

  /** The connection settings; the empty string stands for a variable the
      environment does not define. */
  datatype Config = Config(url: string, token: string)

  datatype Operations = Operations(setOk: bool, getOk: bool, deleteOk: bool)

  datatype Health = Connected(operations: Operations) | Disconnected(error: string)

  const MissingConfig := "Missing Redis configuration - URL or token not found in environment variables"

  function TestKey(now: int): string {
    "test:" + Text.IntToString(now)
  }

  function TestValue(now: int): Json {
    JObj(map["timestamp" := JNum(now), "test" := JBool(true)])
  }

  /** `testRedisConnection`: without configuration, report disconnected and
      leave the store alone; otherwise set, read back and delete a throwaway
      key. Every helper absorbs its own faults, so a configured store is
      reported connected, with `get` telling whether the round trip worked. */
  function TestRedisConnection(st: Store, now: int, config: Config): (r: (Health, Store))
    ensures config.url == "" || config.token == "" ==> r == (Disconnected(MissingConfig), st)
    ensures config.url != "" && config.token != "" ==>
      && r.0 == Connected(Operations(true, st.reachable, true))
      && (st.reachable ==> r.1.entries == st.entries - {TestKey(now)} && r.1.reachable)
      && (!st.reachable ==> r.1 == st)
  {
    if config.url == "" || config.token == "" then (Disconnected(MissingConfig), st)
    else
      var key := TestKey(now);
      var (_, s1) := SetWithExpiry(st, now, key, TestValue(now), 60);
      var retrieved := GetValue(s1, now, key);
      var (_, s2) := DeleteKey(s1, now, key);
      assert st.reachable ==> s2.entries == st.entries - {key};
      (Connected(Operations(true, retrieved.Some? && Prop(retrieved.value, "test") == Some(JBool(true)), true)), s2)
  }

  /** The write helpers keep SCAN's key order in step with the keys. */
  lemma {:induction false} SetWithExpiryKeepsValid(st: Store, now: int, key: string, value: Json, expirySeconds: int)
    requires Valid(st)
    ensures Valid(SetWithExpiry(st, now, key, value, expirySeconds).1)
  {
    WritesKeepValid(st, now, key, value, expirySeconds);
  }

  lemma {:induction false} DeleteKeyKeepsValid(st: Store, now: int, key: string)
    requires Valid(st)
    ensures Valid(DeleteKey(st, now, key).1)
  {
    WritesKeepValid(st, now, key, JNull, 0);
  }

  lemma {:induction false} TestRedisConnectionKeepsValid(st: Store, now: int, config: Config)
    requires Valid(st)
    ensures Valid(TestRedisConnection(st, now, config).1)
  {
    var key := TestKey(now);
    SetWithExpiryKeepsValid(st, now, key, TestValue(now), 60);
    DeleteKeyKeepsValid(SetWithExpiry(st, now, key, TestValue(now), 60).1, now, key);
  }
}

=== FILE: text.dfy ===
/** String handling the weather service relies on, in JavaScript's terms:
    the decimal rendering of an integer (`${n}`), `parseInt` without a radix,
    `trim`, `toLowerCase` and the first-occurrence `replace`. */
module Text {
  import opened Optional

  // ---------------------------------------------------------------- digits

  predicate IsDigit(c: char) { '0' <= c <= '9' }

  predicate AllDigits(s: string) { forall i :: 0 <= i < |s| ==> IsDigit(s[i]) }

  /** Value of a letter or digit as a digit in radices up to 36, as `parseInt`
      reads it; 36 for any other character, which no radix accepts. */
  function DigitValue(c: char): nat {
    if '0' <= c <= '9' then c as int - '0' as int
    else if 'a' <= c <= 'z' then c as int - 'a' as int + 10
    else if 'A' <= c <= 'Z' then c as int - 'A' as int + 10
    else 36
  }

  predicate IsRadixDigit(c: char, radix: nat) { DigitValue(c) < radix }

  function DigitChar(d: nat): (c: char)
    requires d < 10
    ensures IsDigit(c) && DigitValue(c) == d
  {
    (d + '0' as int) as char
  }

  /** Value of a string of radix digits, most significant digit first. */
  function ValueIn(s: string, radix: nat): int
    requires forall i :: 0 <= i < |s| ==> IsRadixDigit(s[i], radix)
  {
    if |s| == 0 then 0
    else
      var init := s[..|s| - 1];
      assert forall i :: 0 <= i < |init| ==> init[i] == s[i];
      ValueIn(init, radix) * radix + DigitValue(s[|s| - 1])
  }

  /** Decimal numeral of a natural number without leading zeros. */
  function NatToString(n: nat): (s: string)
    ensures |s| > 0 && AllDigits(s)
    ensures s[0] == '0' ==> n == 0
  {
    if n < 10 then [DigitChar(n)] else NatToString(n / 10) + [DigitChar(n % 10)]
  }

  /** JavaScript's rendering of an integral number: `${n}`. */
  function IntToString(n: int): (s: string)
    ensures |s| > 0 && (s[0] == '-' || IsDigit(s[0]))
  {
    if n < 0 then "-" + NatToString(-n) else NatToString(n)
  }

  /** Reading a numeral back gives the number it was rendered from. */
  lemma {:induction false} NatToStringValue(n: nat)
    ensures ValueIn(NatToString(n), 10) == n
  {
    var s := NatToString(n);
    if n >= 10 {
      NatToStringValue(n / 10);
      assert s[..|s| - 1] == NatToString(n / 10);
    }
  }

  lemma {:induction false} NatToStringInjective(a: nat, b: nat)
    ensures NatToString(a) == NatToString(b) <==> a == b
  {
    if NatToString(a) == NatToString(b) {
      NatToStringValue(a);
      NatToStringValue(b);
    }
  }

  /** Distinct integers render as distinct numerals. */
  lemma {:induction false} IntToStringInjective(a: int, b: int)
    ensures IntToString(a) == IntToString(b) <==> a == b
  {
    if IntToString(a) == IntToString(b) {
      if a < 0 && b < 0 {
        assert NatToString(-a) == IntToString(a)[1..];
        assert NatToString(-b) == IntToString(b)[1..];
        NatToStringInjective(-a, -b);
      } else if a >= 0 && b >= 0 {
        NatToStringInjective(a, b);
      }
    }
  }

  // ---------------------------------------------------------- white space

  /** JavaScript's WhiteSpace and LineTerminator characters: what `trim` strips
      and what `parseInt` skips. */
  predicate IsJsSpace(c: char) {
    || c == '\t' || c == '\n' || c == '\U{B}' || c == '\U{C}' || c == '\r' || c == ' '
    || c == '\U{A0}' || c == '\U{1680}' || ('\U{2000}' <= c <= '\U{200A}')
    || c == '\U{2028}' || c == '\U{2029}' || c == '\U{202F}' || c == '\U{205F}'
    || c == '\U{3000}' || c == '\U{FEFF}'
  }

  predicate AllSpace(s: string) { forall i :: 0 <= i < |s| ==> IsJsSpace(s[i]) }

  function TrimStart(s: string): string {
    if |s| > 0 && IsJsSpace(s[0]) then TrimStart(s[1..]) else s
  }

  function TrimEnd(s: string): string {
    if |s| > 0 && IsJsSpace(s[|s| - 1]) then TrimEnd(s[..|s| - 1]) else s
  }

  /** `String.prototype.trim`. */
  function Trim(s: string): string {
    TrimEnd(TrimStart(s))
  }

  /** Trimming leaves nothing exactly when the string is all white space
      (`!city.trim()` in the client). */
  lemma {:induction false} TrimEmptyIffAllSpace(s: string)
    ensures Trim(s) == "" <==> AllSpace(s)
  {
    TrimStartEmptyIffAllSpace(s);
    TrimEndKeepsBorders(TrimStart(s));
  }

  lemma {:induction false} TrimStartEmptyIffAllSpace(s: string)
    ensures TrimStart(s) == "" <==> AllSpace(s)
    ensures TrimStart(s) != "" ==> !IsJsSpace(TrimStart(s)[0])
  {
    if |s| > 0 && IsJsSpace(s[0]) {
      TrimStartEmptyIffAllSpace(s[1..]);
      if AllSpace(s[1..]) {
        assert AllSpace(s) by {
          forall i | 0 <= i < |s| ensures IsJsSpace(s[i]) {
            if i > 0 { assert s[i] == s[1..][i - 1]; }
          }
        }
      }
    }
  }

  /** Trimming the end of a string whose first character is not white space
      leaves it non-empty. */
  lemma {:induction false} TrimEndKeepsBorders(s: string)
    ensures |s| > 0 && !IsJsSpace(s[0]) ==> TrimEnd(s) != ""
  {
    if |s| > 0 && IsJsSpace(s[|s| - 1]) {
      TrimEndKeepsBorders(s[..|s| - 1]);
    }
  }

  lemma {:induction false} TrimStartSkipsSpace(pre: string, s: string)
    requires AllSpace(pre)
    ensures TrimStart(pre + s) == TrimStart(s)
  {
    if |pre| > 0 {
      assert (pre + s)[1..] == pre[1..] + s;
      TrimStartSkipsSpace(pre[1..], s);
    } else {
      assert pre + s == s;
    }
  }

  lemma {:induction false} TrimEndSkipsSpace(s: string, post: string)
    requires AllSpace(post)
    ensures TrimEnd(s + post) == TrimEnd(s)
  {
    if |post| > 0 {
      var p := post[..|post| - 1];
      assert (s + post)[..|s + post| - 1] == s + p;
      TrimEndSkipsSpace(s, p);
    } else {
      assert s + post == s;
    }
  }

  lemma {:induction false} TrimStartAppend(s: string, post: string)
    requires TrimStart(s) != ""
    ensures TrimStart(s + post) == TrimStart(s) + post
  {
    if |s| > 0 && IsJsSpace(s[0]) {
      assert (s + post)[1..] == s[1..] + post;
      TrimStartAppend(s[1..], post);
    }
  }

  /** White space around a string does not survive `trim`. */
  lemma {:induction false} TrimIgnoresPadding(pre: string, s: string, post: string)
    requires AllSpace(pre) && AllSpace(post)
    ensures Trim(pre + s + post) == Trim(s)
  {
    assert pre + s + post == pre + (s + post);
    TrimStartSkipsSpace(pre, s + post);
    TrimStartEmptyIffAllSpace(s);
    if TrimStart(s) == "" {
      TrimStartEmptyIffAllSpace(s + post);
    } else {
      TrimStartAppend(s, post);
      TrimEndSkipsSpace(TrimStart(s), post);
    }
  }

  // ------------------------------------------------------------ lower case

  function LowerChar(c: char): char {
    if 'A' <= c <= 'Z' then (c as int + 32) as char else c
  }

  /** `toLowerCase` restricted to ASCII letters. */
  function Lower(s: string): (r: string)
    ensures |r| == |s|
  {
    seq(|s|, i requires 0 <= i < |s| => LowerChar(s[i]))
  }

  lemma {:induction false} TrimStartLower(s: string)
    ensures TrimStart(Lower(s)) == Lower(TrimStart(s))
  {
    if |s| > 0 && IsJsSpace(s[0]) {
      assert Lower(s)[1..] == Lower(s[1..]);
      TrimStartLower(s[1..]);
    }
  }

  lemma {:induction false} TrimEndLower(s: string)
    ensures TrimEnd(Lower(s)) == Lower(TrimEnd(s))
  {
    if |s| > 0 && IsJsSpace(s[|s| - 1]) {
      assert Lower(s)[..|s| - 1] == Lower(s[..|s| - 1]);
      TrimEndLower(s[..|s| - 1]);
    }
  }

  /** Lower-casing and trimming commute, so `s.toLowerCase().trim()` equals
      `s.trim().toLowerCase()`. */
  lemma {:induction false} TrimLowerCommute(s: string)
    ensures Trim(Lower(s)) == Lower(Trim(s))
  {
    TrimStartLower(s);
    TrimEndLower(TrimStart(s));
  }

  // --------------------------------------------------------------- parseInt

  /** The longest prefix of `s` made of radix digits. */
  function LeadingDigits(s: string, radix: nat): (d: string)
    ensures d <= s
    ensures forall i :: 0 <= i < |d| ==> IsRadixDigit(d[i], radix)
    ensures |d| < |s| ==> !IsRadixDigit(s[|d|], radix)
  {
    if |s| > 0 && IsRadixDigit(s[0], radix) then [s[0]] + LeadingDigits(s[1..], radix) else ""
  }

  /** JavaScript's `parseInt(s)` with no radix; `None` is NaN. Leading white
      space is skipped, one sign is read, a `0x`/`0X` prefix selects radix 16,
      and the longest run of digits that follows is the value. */
  function ParseInt(s: string): Option<int> {
    var t := TrimStart(s);
    if |t| > 0 && t[0] == '-' then
      match ParseMagnitude(t[1..])
      case None => None
      case Some(v) => Some(-v)
    else if |t| > 0 && t[0] == '+' then ParseMagnitude(t[1..])
    else ParseMagnitude(t)
  }

  /** The unsigned part of `parseInt`: an optional `0x`/`0X` prefix, then the
      longest run of digits of the radix it selects. */
  function ParseMagnitude(u: string): Option<int> {
    var hex := |u| >= 2 && u[0] == '0' && (u[1] == 'x' || u[1] == 'X');
    var radix := if hex then 16 else 10;
    var digits := LeadingDigits(if hex then u[2..] else u, radix);
    if |digits| == 0 then None else Some(ValueIn(digits, radix))
  }

  lemma {:induction false} LeadingDigitsOfNumeral(s: string)
    requires AllDigits(s)
    ensures LeadingDigits(s, 10) == s
  {
    if |s| > 0 {
      assert IsRadixDigit(s[0], 10);
      LeadingDigitsOfNumeral(s[1..]);
    }
  }

  /** A decimal numeral is read as its value. */
  lemma {:induction false} MagnitudeOfNumeral(digits: string)
    requires |digits| > 0 && AllDigits(digits)
    ensures ParseMagnitude(digits) == Some(ValueIn(digits, 10))
  {
    var hex := |digits| >= 2 && digits[0] == '0' && (digits[1] == 'x' || digits[1] == 'X');
    assert !hex by {
      if |digits| >= 2 { assert IsDigit(digits[1]); }
    }
    LeadingDigitsOfNumeral(digits);
  }

  /** Leading white space aside, a numeral is read as its value... */
  lemma {:induction false} ParseUnsignedNumeral(digits: string)
    requires |digits| > 0 && AllDigits(digits)
    ensures ParseInt(digits) == Some(ValueIn(digits, 10))
  {
    assert IsDigit(digits[0]) && TrimStart(digits) == digits;
    MagnitudeOfNumeral(digits);
  }

  /** A minus sign in front negates whatever magnitude follows it. */
  lemma {:induction false} ParseAfterMinus(rest: string, v: int)
    requires ParseMagnitude(rest) == Some(v)
    ensures ParseInt("-" + rest) == Some(-v)
  {
    var t := "-" + rest;
    assert t[0] == '-' && TrimStart(t) == t;
    assert t[1..] == rest;
  }

  /** ... and a numeral after a minus sign as its negated value. */
  lemma {:induction false} ParseNegatedNumeral(digits: string)
    requires |digits| > 0 && AllDigits(digits)
    ensures ParseInt("-" + digits) == Some(-ValueIn(digits, 10))
  {
    MagnitudeOfNumeral(digits);
    ParseAfterMinus(digits, ValueIn(digits, 10));
  }

  /** `parseInt` reads back every integer rendered by `${n}`. */
  lemma {:induction false} ParseIntRoundTrip(n: int)
    ensures ParseInt(IntToString(n)) == Some(n)
  {
    if n < 0 {
      NatToStringValue(-n);
      ParseNegatedNumeral(NatToString(-n));
    } else {
      NatToStringValue(n);
      ParseUnsignedNumeral(NatToString(n));
    }
  }

  // --------------------------------------------------------------- replace

  /** First index at or after `from` where `pat` occurs in `s`. */
  function IndexOf(s: string, pat: string, from: nat): (r: Option<nat>)
    ensures r.Some? ==> from <= r.value && r.value + |pat| <= |s| && s[r.value..r.value + |pat|] == pat
    decreases |s| - from
  {
    if from + |pat| > |s| then None
    else if s[from..from + |pat|] == pat then Some(from)
    else IndexOf(s, pat, from + 1)
  }

  /** `s.replace(pat, rep)` with a string pattern: only the first occurrence
      is replaced (`rep` holds no `$` substitution patterns). */
  function ReplaceFirst(s: string, pat: string, rep: string): string {
    match IndexOf(s, pat, 0)
    case None => s
    case Some(i) => s[..i] + rep + s[i + |pat|..]
  }

  /** Replacing a prefix by nothing strips exactly that prefix. */
  lemma {:induction false} StripPrefix(s: string, pat: string)
    requires pat <= s
    ensures ReplaceFirst(s, pat, "") == s[|pat|..]
  {
    assert s[0..|pat|] == pat;
  }
}
